=== FILE: README.md ===
# Equipment analytics backend in Dafny

This project models the backend of the chemical-equipment analytics service. Users upload a CSV file of equipment readings. The server works in four steps:

- **Analysis.** It checks and analyses the table: strips the column names, requires five columns, coerces the numeric columns leniently, computes the averages and the type counts, and normalises the rows.
- **Storage.** It stores the summary as an `EquipmentDataset` record.
- **Retention.** It keeps only the five newest datasets of the uploader's scope.
- **Output.** It serves a record by id, the history of the newest five, and a PDF report of one record.

The model is pure: immutable datatypes and functions over sequences. It has seven modules:

- `Base`: `Option`, `Result`, filtering and sums.
- `Text`: Python's `str.strip`, `str(int)`, zero-padded date fields and list `repr`.
- `Sorting`: insertion sort, keys and permutations.
- `Models`: the `EquipmentDataset` record, its cells, rows and default ordering.
- `Tally`: pandas' `value_counts`.
- `Services`: `normalize_columns` and `parse_and_analyze`.
- `Retention`: `trim_to_last_n` and the history listing.

Two more modules cover the output:

- `PdfReport` models `build_pdf_report` as a list of document elements (paragraphs, spacers and tables of strings).
- `Views` models the four request handlers. The store is the dataset table in insertion order plus the next primary key.

Several outside parts are parameters of the model rather than modelled code:

- **CSV reader.** The input to the analysis is what `pd.read_csv` produced: a header and cell rows, or the reason it failed.
- **Numeric primitives** (the `Numerics` record):
  - pandas' string-to-number parsing;
  - `round(x, 4)`;
  - Python's `str()` of a float.
- **Clock.** The upload time is a parameter.
- **Caller.** The caller (a logged-in user or nobody) is a parameter.

Three details of the code shape the model:

- The first required column is `Equipment Name`, with a space.
- `type_distribution` is pandas' `value_counts()`. It skips rows whose `Type` is missing; there is no bucket for missing types.
- Only the column names are stripped. `Type` values are counted as they stand.

## Model

| member | source | states |
|---|---|---|
| Text.Strip | backend/equipment_api/services.py:13 | The stripped name has no whitespace at either end. It is empty exactly when the name is all whitespace. Otherwise it is the name with its leading and trailing whitespace cut off: what precedes it and what follows it is all whitespace. |
| Text.StripPadded | backend/equipment_api/services.py:11-14 | Stripping a whitespace-padded trimmed name gives that name back, so a header `" Type "` becomes `Type`. |
| Text.StripIdempotent | backend/equipment_api/services.py:13 | Stripping a stripped name changes nothing. |
| Text.ParseNatToString | backend/equipment_api/pdf_report.py:37 | `str()` of a non-negative integer reads back as the same integer. |
| Text.DecimalIsPrinted | backend/equipment_api/pdf_report.py:37 | A numeral of digits only, with no leading zero, is exactly `str()` of the value it reads as. A read-back that also states this fixes the printed text, not just the value. |
| Text.Pad2 | backend/equipment_api/pdf_report.py:31 | A `%m`/`%d`/`%H`/`%M` field is two digits that read back as the value. |
| Services.NormalizeColumns | backend/equipment_api/services.py:11-14 | Every column name is stripped, one per header entry, in order. |
| Services.MissingFrom | backend/equipment_api/services.py:29 | A column is reported missing exactly when it is expected and absent from the stripped header. The missing columns are listed once each, in the order of the expected columns. |
| Services.ErrorMessage | backend/equipment_api/services.py:22-31 | An error's text starts with `Invalid CSV: ` exactly for an unreadable file, followed by the reader's reason. A missing-columns text starts with `Missing columns: ` followed by the Python list of the missing columns, then `. Expected: ` and the Python list of the expected columns. |
| Services.NothingMissing | backend/equipment_api/services.py:29-31 | Nothing is missing exactly when every expected column is present. |
| Services.ColumnIndex | backend/equipment_api/services.py:35 | The position of a column name in the header, and whether it is there. |
| Services.Coerce | backend/equipment_api/services.py:34-35 | Coercion never leaves text in a numeric column. A number stays the same. A string that parses becomes that number. Anything else becomes missing, and nothing raises. |
| Services.NumbersInCounts | backend/equipment_api/services.py:38-40 | The numbers of a column are its non-missing cells: their count, their sum, and "no number" exactly when no cell is a number. |
| Services.Average | backend/equipment_api/services.py:38-40 | An average is missing exactly when the column holds no number. Otherwise it is the rounded total over the count of numbers, so missing values are skipped, not counted as zero. |
| Services.MeanWithinBounds | backend/equipment_api/services.py:38-40 | The mean lies between the smallest and the largest value. |
| Services.Normalize | backend/equipment_api/services.py:44-49 | A stored value is a number exactly when the value was. A number is rounded to four places; a string or a missing value is kept. |
| Services.RecordRow | backend/equipment_api/services.py:43-49 | A stored row has every column of the stripped header, in order. A numeric cell is never text, and is missing exactly when its coercion is. Every number, in any column, is stored rounded to four places. A string or missing value in another column passes through unchanged. |
| Services.TypeLabels | backend/equipment_api/services.py:41 | One label per row whose `Type` is present. |
| Services.TypeLabelCounts | backend/equipment_api/services.py:41 | A label occurs among the labels once for every row whose `Type` is present and prints as that label. |
| Services.TypeLabelsAreDisplayed | backend/equipment_api/services.py:41 | A string is a label exactly when some present `Type` value prints as it. |
| Services.ParseAndAnalyze | backend/equipment_api/services.py:17-59 | An unreadable file is an "Invalid CSV" error. A readable table succeeds exactly when every expected column is in the stripped header. Otherwise the error is "Missing columns", naming exactly the absent expected columns, once each and in the order of the expected columns, plus the full expected list. On success the result is the analysis of the table under its stripped header, and `total_count` equals the number of data rows and of stored rows. |
| Services.Analyze | backend/equipment_api/services.py:37-58 | The summary counts every data row, including rows with missing values, and stores one row per data row. |
| Services.TypeDistributionCounts | backend/equipment_api/services.py:41 | In the analysis of any table, `type_distribution` lists each printed `Type` value once, with the positive number of rows whose `Type` prints as it, most frequent first. Its counts add up to `total_count` minus the rows without a `Type`. |
| Services.AveragesAreColumnMeans | backend/equipment_api/services.py:53-55 | In the analysis of any table, each stored average is the rounded mean of the numbers in its coerced column, and is missing exactly when that column holds none. |
| Services.RawRowsFollowRecords | backend/equipment_api/services.py:43-57 | `raw_rows` has one row per data line, in file order. Row `i` has every column of the stripped header, never text in a numeric column, a missing number exactly where line `i` has none, every number of line `i` rounded to four places, and line `i`'s strings and missing values in other columns unchanged. |
| Tally.Bump | backend/equipment_api/services.py:41 | Counting one more occurrence adds one to that label's count and to the total, keeps labels distinct and counts positive, and leaves every other label's count alone. |
| Tally.CountInOrder | backend/equipment_api/services.py:41 | The tally has each label once, exactly the labels that occur, with its number of occurrences. Its counts add up to the number of labels. |
| Tally.EntriesAreCounts | backend/equipment_api/services.py:41 | In a tally with distinct labels, every entry's count is the count looked up for its label. |
| Tally.ValueCounts | backend/equipment_api/services.py:41 | `value_counts()` lists each label once with its positive occurrence count, sums to the number of labels, and is ordered by count, highest first. |
| Retention.NewerOrSameIsTotalOrder | backend/equipment_api/models.py:27-28 | Newest-first by `created_at` (ties broken by id) is a total, transitive order. |
| Retention.ScopeFacts | backend/equipment_api/views.py:20-23 | The caller's scope holds exactly the stored datasets in scope: all of them for nobody, the caller's own for a logged-in user. Its newest-first listing holds the same datasets, with unique keys. |
| Retention.DoomedInScope | backend/equipment_api/views.py:23-24 | A dataset of the scope is marked for deletion exactly when five or more datasets of the scope are newer. |
| Retention.DoomedOutOfScope | backend/equipment_api/views.py:20-24 | A dataset outside the scope is never marked for deletion. |
| Retention.NewestFirst | backend/equipment_api/views.py:23 | `order_by('-created_at')` reorders the datasets without losing or adding any, newest first. |
| Retention.TrimToLastN | backend/equipment_api/views.py:18-26 | Trimming only deletes. |
| Retention.RankInListing | backend/equipment_api/views.py:23-24 | A dataset's position in the scope's newest-first listing is the number of datasets of the scope that are newer than it. |
| Retention.TrimKeepsNewest | backend/equipment_api/views.py:20-26 | A dataset survives the trim exactly when it is outside the caller's scope, or fewer than five datasets of the scope are newer than it. |
| Retention.TrimCap | backend/equipment_api/views.py:15-26 | After the trim the scope holds `min(5, what it held)` datasets. |
| Retention.TrimWithinLimit | backend/equipment_api/views.py:24-26 | A scope with at most five datasets loses nothing. |
| Retention.TrimIdempotent | backend/equipment_api/views.py:24-26 | A second trim with no save in between deletes nothing. |
| Retention.TrimSparesOtherScopes | backend/equipment_api/views.py:20-22 | The datasets outside the caller's scope are unchanged, in order. A logged-in user's trim never touches other users' datasets. |
| Retention.History | backend/equipment_api/views.py:76 | The history holds `min(5, stored)` datasets, newest first. |
| Retention.HistoryIsNewest | backend/equipment_api/views.py:76 | A dataset is in the history exactly when fewer than five stored datasets are newer than it, whoever uploaded it. That is the same set an anonymous trim keeps. |
| PdfReport.FormatTimestamp | backend/equipment_api/pdf_report.py:31 | `%Y-%m-%d %H:%M` is the year as a plain numeral followed by twelve characters: `-`, `-`, a space and `:` between the fields, and digits everywhere else. |
| PdfReport.TimestampRoundTrip | backend/equipment_api/pdf_report.py:31 | The "Generated:" time reads back as the creation year, month, day, hour and minute. |
| PdfReport.SummaryTable | backend/equipment_api/pdf_report.py:35-41 | The summary table is the header `Metric`, `Value` plus four two-cell metric rows labelled, in order, "Total Equipment Count", "Average Flowrate", "Average Pressure" and "Average Temperature". |
| PdfReport.SummaryTableStatesSummary | backend/equipment_api/pdf_report.py:36-40 | The count cell is a plain numeral (digits, no leading zero) that reads back as `total_count`, so it is `str(total_count)`. An average prints as `N/A` exactly when it is missing, and otherwise as its string form. |
| PdfReport.DistributionTable | backend/equipment_api/pdf_report.py:56-59 | The distribution table is the header `['Type', 'Count']` plus one two-cell row per mapping entry. |
| PdfReport.DistributionRoundTrip | backend/equipment_api/pdf_report.py:57-59 | The distribution rows give back every label and count, in mapping order. Every count cell is a plain numeral. |
| Models.Display | backend/equipment_api/pdf_report.py:74 | A string prints as itself, a missing value as `None`, and a number as the float printer prints it. |
| PdfReport.CellText | backend/equipment_api/pdf_report.py:74 | A key absent from a row renders as `''`. A present key renders as `str()` of its value, so a missing value renders as `None`. |
| PdfReport.SampleTable | backend/equipment_api/pdf_report.py:73-74 | The sample headers are the first row's keys. There are `min(50, rows)` data rows, each one cell per header, holding that row's value for the header. |
| PdfReport.ColumnWidths | backend/equipment_api/pdf_report.py:75-76 | There is one width per header, all equal, summing to 4.5 inch when there are headers. Nothing is divided without headers. |
| PdfReport.SampleSection | backend/equipment_api/pdf_report.py:71-86 | The sample section is the "No data rows." paragraph when there are no rows. Otherwise it is the sample table with equal column widths, one per key of the first row. |
| PdfReport.SampleSectionShowsRows | backend/equipment_api/pdf_report.py:70-86 | The section is the placeholder exactly when there are no rows. Otherwise its header row is the first row's keys, it holds at most 50 rows printed cell by cell, and its columns are equally wide and span 4.5 inches together. |
| PdfReport.BuildReport | backend/equipment_api/pdf_report.py:28-86 | The report has 13 elements in a fixed order: the title, a spacer, the "Dataset:" heading, the "Generated:" line and a spacer. Then come the "Summary Statistics" heading, the summary table and a spacer, and the "Equipment Type Distribution" heading, the distribution table and a spacer. It ends with the "Data Table (Sample)" heading and the sample section of the dataset's rows. No other element is a heading. |
| PdfReport.ReportTablesReadBack | backend/equipment_api/pdf_report.py:34-60 | The report's tables state the stored count and the distribution counts as plain numerals, `N/A` exactly for the missing averages, and the whole distribution. |
| Views.Upload | backend/equipment_api/views.py:32-57 | The answer is 201 exactly when there is a non-empty file and its analysis succeeds. Otherwise it is 400 and the store is unchanged: "No file provided", or the analysis error's text. On success the answer is that of `Views.Save` applied to the analysis. |
| Views.StoredName | backend/equipment_api/views.py:36 | The form's `name` field wins when sent. Otherwise a non-empty file name is used. `'Untitled'` results only when one of them says so or the file name is empty. |
| Views.StoredNameRule | backend/equipment_api/views.py:36 | The stored name is the `name` field if given and the file name otherwise. `'Untitled'` is stored only when one of those says so. |
| Views.Save | backend/equipment_api/views.py:43-57 | A save answers 201 with a record that has the next key, the upload time and the uploader. The store's next key advances by one, and the store becomes the trim of the old store plus that record. |
| Views.SaveCopiesSummary | backend/equipment_api/views.py:36-52 | The saved record holds the analysis fields unchanged, under the stored name. |
| Views.SaveKeepsValid | backend/equipment_api/views.py:43-54 | A save keeps primary keys unique and below the next key. |
| Views.UploadKeepsValid | backend/equipment_api/views.py:43-54 | Every upload keeps primary keys unique and below the next key. |
| Views.SavedSurvives | backend/equipment_api/views.py:53-54 | With a clock that does not run backwards, the dataset just saved survives the trim that follows it. |
| Views.SaveCap | backend/equipment_api/views.py:53-54 | After a save the uploader's scope holds `min(5, previous + 1)` datasets. |
| Views.SaveSparesOtherScopes | backend/equipment_api/views.py:45-54 | A save leaves the datasets outside the uploader's scope unchanged, in order. |
| Views.UploadSparesOtherScopes | backend/equipment_api/views.py:32-57 | No upload request, successful or not, changes the datasets outside the caller's scope. |
| Views.Find | backend/equipment_api/views.py:65 | The lookup by primary key finds nothing exactly when no dataset has the key. Otherwise it finds a stored dataset with that key. |
| Views.FindStored | backend/equipment_api/views.py:65 | With unique keys, looking up a stored dataset's key finds that dataset. |
| Views.SummaryGet | backend/equipment_api/views.py:63-69 | 404 "Dataset not found" exactly when no dataset has the key. Otherwise 200 with the stored record that has the key. |
| Views.ReportGet | backend/equipment_api/views.py:84-92 | 404 "Dataset not found" exactly when no dataset has the key. Otherwise 200 with the report of the stored record with that key, as `equipment_report_<id>.pdf`. |
| Views.ReportFileNameNamesKey | backend/equipment_api/views.py:91 | The attachment name is `equipment_report_`, the key, then `.pdf`. The key part is a plain numeral that reads back as the key, so it is `str(id)`. |
| Views.HistoryGet | backend/equipment_api/views.py:75-78 | The history answer is 200 with `min(5, stored)` datasets, newest first. |
| Views.HistoryGetIsNewest | backend/equipment_api/views.py:76 | The history lists exactly the datasets that fewer than five stored ones are newer than. It is not filtered by user. |
| Views.SaveThenLookup | backend/equipment_api/views.py:53-69 | With a clock that does not run backwards, the key returned by a save finds the saved record, and the history lists it. |

## Left out

- Tokenising the file (`pd.read_csv`): the model starts from the header and the cells the reader produced, or from the reason it failed. Type inference is part of that input: a cell is text, a number or missing.
- Duplicate column names after stripping (say ` Flowrate` and `Flowrate`) are not modelled; the model reads the first column of a name and answers 201. In the code `df[col]` then selects a two-column frame:
  - for a numeric column, `pd.to_numeric` raises `TypeError` on it, which the upload handler does not catch (it catches only `ValueError`), so the request ends in an HTTP 500;
  - for `Type`, `value_counts()` counts pairs of values, so the keys of `type_distribution` are printed tuples;
  - in `raw_rows`, `to_dict` keeps one value per duplicated key.
- `pd.to_numeric`'s parsing, `round(x, 4)` and `str()` of a float are parameters (`Numerics`). Floating-point arithmetic is replaced by exact reals.
- Infinite numbers: a cell or a parsed string such as `inf`, `-Infinity` or `1e999` is a float infinity in the code, but the model's numbers are finite reals. The code's guards for missing values do not stop an infinity: `pd.isna` is false for it, it equals itself, and `pd.notna` is true. So it reaches `raw_rows` and, through the mean, the averages. The 201 answer would then carry a non-finite float, which strict JSON rendering refuses, so such an upload does not end in a 201. Neither the infinite values nor that failing answer is modelled.
- Integer and boolean cells: pandas infers `int64` and `bool` columns, but the model has one kind of number, printed by the float printer and rounded. This differs from the code in three ways:
  - `raw_rows` rounds only floats, so integers and booleans stay as they are;
  - `str()` prints an integer as `1` and a boolean as `True`, where a float prints as `1.0`; this changes the keys of `type_distribution` and the cells of the sample table;
  - a boolean numeric column averages as the fraction of `True` values.
- Ties in `value_counts()` among equal counts: pandas leaves their order to its implementation. The model fixes some order and states only the count ordering.
- Ties in `created_at`: the code leaves their order open. The model breaks them by primary key, the newer key first.
- The time zone of `created_at` and the seconds that `%H:%M` drops: the timestamp is kept as the stored wall-clock fields.
- `created_at` (`auto_now_add`) is the upload's `now` parameter. No handler changes a stored record, so it is never updated.
- The 255-character limit on `name` is a database constraint and is not modelled. The model's defaults (`'Untitled'`, zero, empty mapping and list) are overwritten by the upload, which sets every field.
- A JSON `null` in `type_distribution` or `raw_rows` (which the report treats as empty) cannot arise: the stored fields are never null.
- The `request.data.get('file')` fallback is not modelled. It applies when the form has no file part but has a plain text field named `file`. A non-empty text is truthy, so reading its `.name` raises `AttributeError` and the request ends in an HTTP 500. An empty text gives 400 "No file provided". The model can express such a request only as one without a file, which always gets the 400.
- A Django `File` is false when its name is empty. So the `'Untitled'` fallback of `file_obj.name or 'Untitled'` is never reached; `Views.StoredNameRule` states this.
- Authentication is modelled only as the caller (a user id or nobody).
- Serialisation: the answer carries the whole record. The serializer's field selection (it omits `uploaded_by`) and JSON encoding are not modelled.
- The ORM, its transactions, and the read-then-delete race of `trim_to_last_n` under concurrent uploads: requests are applied one at a time to an in-memory store.
- ReportLab layout, styles, fonts, colours, page size and the PDF bytes: the report is the element list handed to the renderer.
- PdfReport.BuildReport: the dataset name is kept as literal text. In the code it goes unescaped into a ReportLab `Paragraph`, which reads its text as inline markup. So a name such as `<b>x</b>` renders as markup, and malformed markup makes `Paragraph` raise. `PDFReportView` does not catch that error, so the request ends in an HTTP 500. The name comes unrestricted from the form field or the file name. Neither the markup reading nor this error path is modelled.
- The HTTP content type and header plumbing of the PDF response: only the status, the document and the attachment name are modelled.
- Routing, the admin site, migrations and both front ends.

=== FILE: base.dfy ===
/** Small failure-aware wrappers shared by every module of the model. */
module Base {

  /** A value that may be absent (Python's `None`). */
  datatype Option<+T> = None | Some(value: T)

  /** The outcome of an operation that either succeeds or reports an error. */
  datatype Result<+R, +E> = Success(value: R) | Failure(error: E)

  /** The sum of `f` over the elements of `s`. */
  function SumOf<T>(s: seq<T>, f: T -> int): int
  {
    if s == [] then 0 else SumOf(s[..|s| - 1], f) + f(s[|s| - 1])
  }

  /** The sum of a sequence of reals. */
  function RealSum(xs: seq<real>): real
  {
    if xs == [] then 0.0 else RealSum(xs[..|xs| - 1]) + xs[|xs| - 1]
  }

  /** The elements of `s` that satisfy `p`, in their original order. */
  function Filter<T(!new)>(s: seq<T>, p: T -> bool): (r: seq<T>)
    ensures |r| <= |s|
  {
    if s == [] then []
    else Filter(s[..|s| - 1], p) + (if p(s[|s| - 1]) then [s[|s| - 1]] else [])
  }

  /** The filtered sequence holds exactly the elements that pass. */
  lemma {:induction false} FilterMembers<T(!new)>(s: seq<T>, p: T -> bool)
    ensures forall x :: x in Filter(s, p) <==> x in s && p(x)
  {
    if s != [] {
      var n := |s| - 1;
      FilterMembers(s[..n], p);
      assert s == s[..n] + [s[n]];
    }
  }
}

=== FILE: models.dfy ===
/** The stored record of one uploaded CSV file (`EquipmentDataset`), the
    values its rows hold, and the model's default ordering. */
module Models {
  import opened Base

  type Year = y: int | 1 <= y <= 9999 witness 1
  type Month = m: int | 1 <= m <= 12 witness 1
  type Day = d: int | 1 <= d <= 31 witness 1
  type Hour = h: int | 0 <= h < 24
  type Minute = m: int | 0 <= m < 60
  type Second = s: int | 0 <= s < 60
  type Microsecond = u: int | 0 <= u < 1000000

  /** A `created_at` timestamp, with the field ranges of Python's `datetime`. */
  datatype DateTime = DateTime(year: Year, month: Month, day: Day, hour: Hour,
                               minute: Minute, second: Second, microsecond: Microsecond)
  {
    /** Position on the time line: a later moment has a larger value. */
    function Ticks(): int
    {
      ((((((year * 13 + month) * 32 + day) * 24 + hour) * 60 + minute) * 60 + second) * 1000000)
      + microsecond
    }
  }

  /** One value of a row: JSON `null`, a string or a number. Nothing here can
      be NaN: a missing or unparseable value is `Null`. */
  datatype Cell = Null | Text(text: string) | Num(number: real)

  /** A row as stored in `raw_rows`: column name to value, in column order. */
  type Row = seq<(string, Cell)>

  /** `type_distribution`: type label to count, in the mapping's order. */
  type Distribution = seq<(string, nat)>

  /** The identity of a registered user (the `uploaded_by` foreign key). */
  type UserId = nat

  /** Default of the `name` field. */
  const DEFAULT_NAME: string := "Untitled"

  /** `EquipmentDataset`: `uploaded_by` and the three averages are nullable,
      `total_count` is a non-negative integer, and `created_at` is written once,
      when the record is created. */
  datatype Dataset = Dataset(
    id: nat,
    name: string,
    uploadedBy: Option<UserId>,
    createdAt: DateTime,
    totalCount: nat,
    avgFlowrate: Option<real>,
    avgPressure: Option<real>,
    avgTemperature: Option<real>,
    typeDistribution: Distribution,
    rawRows: seq<Row>)

  /** The default ordering `-created_at`, made total by the id: `a` is listed
      no later than `b`. */
  predicate NewerOrSame(a: Dataset, b: Dataset)
  {
    || a.createdAt.Ticks() > b.createdAt.Ticks()
    || (a.createdAt.Ticks() == b.createdAt.Ticks() && a.id >= b.id)
  }

  /** `a` is listed strictly before `b`. */
  predicate Newer(a: Dataset, b: Dataset)
  {
    || a.createdAt.Ticks() > b.createdAt.Ticks()
    || (a.createdAt.Ticks() == b.createdAt.Ticks() && a.id > b.id)
  }

  /** The keys of a row, in order. */
  function Keys(r: Row): (ks: seq<string>)
    ensures |ks| == |r|
  {
    seq(|r|, i requires 0 <= i < |r| => r[i].0)
  }

  /** Python's `row.get(key)`: the value stored under `key`, if any. */
  function Get(r: Row, key: string): (v: Option<Cell>)
    ensures v.None? <==> key !in Keys(r)
    ensures v.Some? ==> (key, v.value) in r
  {
    if r == [] then None
    else if r[0].0 == key then
      assert Keys(r)[0] == key;
      Some(r[0].1)
    else
      assert Keys(r) == [r[0].0] + Keys(r[1..]);
      Get(r[1..], key)
  }

  /** How Python prints a row value, given how floats print: a string as
      itself, a missing value as `None`, a number by the float printer. */
  function Display(c: Cell, showReal: real -> string): (s: string)
    ensures c.Text? ==> s == c.text
    ensures c.Null? ==> s == "None"
    ensures c.Num? ==> s == showReal(c.number)
  {
    match c
    case Null => "None"
    case Text(s) => s
    case Num(x) => showReal(x)
  }
}

=== FILE: pdf_report.dfy ===
/** `build_pdf_report`: the report of one stored dataset as the list of
    flowables handed to ReportLab (paragraphs, spacers and tables of text).
    Page layout, fonts, colours and the PDF bytes are not modelled. */
module PdfReport {
  import opened Base
  import opened Text
  import opened Models

  /** ReportLab's unit: one inch is 72 points. */
  const INCH: real := 72.0

  const REPORT_TITLE: string := "Chemical Equipment Parameter Report"
  const SAMPLE_LIMIT: nat := 50
  const NO_ROWS: string := "No data rows."
  const NOT_AVAILABLE: string := "N/A"

  datatype Style = Title | Heading2 | Normal

  /** One flowable of the document. Lengths are in points. */
  datatype Element =
    | Paragraph(style: Style, text: string)
    | Spacer(height: real)
    | Table(cells: seq<seq<string>>, colWidths: seq<real>)

  // ------------------------------------------------------------ timestamp

  /** The creation time as year, month, day, hour and minute: the year in
      full, the rest as two-digit fields, in the shape `YYYY-MM-DD HH:MM`. */
  function FormatTimestamp(t: DateTime): (s: string)
    ensures |s| == |NatToString(t.year)| + 12
    ensures IsDecimal(s[..|s| - 12])
    ensures s[|s| - 12] == '-' && s[|s| - 9] == '-' && s[|s| - 6] == ' ' && s[|s| - 3] == ':'
    ensures forall i | |s| - 12 < i < |s| && i != |s| - 9 && i != |s| - 6 && i != |s| - 3 :: IsDigit(s[i])
  {
    var y := NatToString(t.year);
    var s := y + "-" + Pad2(t.month) + "-" + Pad2(t.day) + " " + Pad2(t.hour) + ":" + Pad2(t.minute);
    assert s[..|s| - 12] == y;
    assert s[|s| - 12..] == "-" + Pad2(t.month) + "-" + Pad2(t.day) + " " + Pad2(t.hour) + ":" + Pad2(t.minute);
    s
  }

  /** Reads year, month, day, hour and minute back from a formatted
      timestamp: the last twelve characters are `-MM-DD HH:MM`. */
  function ParseTimestamp(s: string): Option<(nat, nat, nat, nat, nat)>
  {
    if |s| < 13 then None
    else
      var n := |s| - 12;
      Some((ParseNat(s[..n]), ParseNat(s[n + 1..n + 3]), ParseNat(s[n + 4..n + 6]),
            ParseNat(s[n + 7..n + 9]), ParseNat(s[n + 10..n + 12])))
  }

  /** The "Generated:" line states the creation time to the minute. */
  lemma TimestampRoundTrip(t: DateTime)
    ensures ParseTimestamp(FormatTimestamp(t)) == Some((t.year as nat, t.month as nat, t.day as nat,
                                                         t.hour as nat, t.minute as nat))
  {
    var y := NatToString(t.year);
    var s := FormatTimestamp(t);
    var n := |y|;
    ParseNatToString(t.year);
    assert s[..n] == y;
    assert s[n + 1..n + 3] == Pad2(t.month);
    assert s[n + 4..n + 6] == Pad2(t.day);
    assert s[n + 7..n + 9] == Pad2(t.hour);
    assert s[n + 10..n + 12] == Pad2(t.minute);
  }

  // ---------------------------------------------------------- summary table

  /** A nullable average as the report prints it. */
  function ShowAverage(a: Option<real>, showReal: real -> string): string
  {
    match a
    case None => NOT_AVAILABLE
    case Some(x) => showReal(x)
  }

  /** The "Summary Statistics" table: a header and four metric rows. */
  function SummaryTable(d: Dataset, showReal: real -> string): (rows: seq<seq<string>>)
    ensures |rows| == 5
    ensures forall i | 0 <= i < |rows| :: |rows[i]| == 2
    ensures rows[0] == ["Metric", "Value"]
    ensures rows[1][0] == "Total Equipment Count" && rows[2][0] == "Average Flowrate"
    ensures rows[3][0] == "Average Pressure" && rows[4][0] == "Average Temperature"
  {
    [["Metric", "Value"],
     ["Total Equipment Count", NatToString(d.totalCount)],
     ["Average Flowrate", ShowAverage(d.avgFlowrate, showReal)],
     ["Average Pressure", ShowAverage(d.avgPressure, showReal)],
     ["Average Temperature", ShowAverage(d.avgTemperature, showReal)]]
  }

  /** The summary table states the stored count, and an average is printed
      as `N/A` exactly when it is missing (no float prints as `N/A`). */
  lemma SummaryTableStatesSummary(d: Dataset, showReal: real -> string)
    requires forall x :: showReal(x) != NOT_AVAILABLE
    ensures var rows := SummaryTable(d, showReal);
            && IsDecimal(rows[1][1]) && ParseNat(rows[1][1]) == d.totalCount
            && (rows[2][1] == NOT_AVAILABLE <==> d.avgFlowrate.None?)
            && (rows[3][1] == NOT_AVAILABLE <==> d.avgPressure.None?)
            && (rows[4][1] == NOT_AVAILABLE <==> d.avgTemperature.None?)
            && (d.avgFlowrate.Some? ==> rows[2][1] == showReal(d.avgFlowrate.value))
            && (d.avgPressure.Some? ==> rows[3][1] == showReal(d.avgPressure.value))
            && (d.avgTemperature.Some? ==> rows[4][1] == showReal(d.avgTemperature.value))
  {
    ParseNatToString(d.totalCount);
  }

  // ----------------------------------------------------- distribution table

  /** The "Equipment Type Distribution" table: a header, then one row per
      entry of the mapping, in its order. */
  function DistributionTable(dist: Distribution): (rows: seq<seq<string>>)
    ensures |rows| == 1 + |dist|
    ensures rows[0] == ["Type", "Count"]
    ensures forall i | 1 <= i < |rows| :: |rows[i]| == 2
  {
    [["Type", "Count"]] + seq(|dist|, i requires 0 <= i < |dist| => [dist[i].0, NatToString(dist[i].1)])
  }

  /** Reads the mapping back from the rows of a distribution table. */
  function ReadDistribution(rows: seq<seq<string>>): Distribution
    requires forall i | 1 <= i < |rows| :: |rows[i]| == 2
  {
    if |rows| <= 1 then []
    else seq(|rows| - 1, i requires 0 <= i < |rows| - 1 => (rows[i + 1][0], ParseNat(rows[i + 1][1])))
  }

  /** The distribution table loses nothing: every label and count, in order. */
  lemma DistributionRoundTrip(dist: Distribution)
    ensures ReadDistribution(DistributionTable(dist)) == dist
    ensures var rows := DistributionTable(dist);
            forall i | 1 <= i < |rows| :: IsDecimal(rows[i][1])
  {
    var back := ReadDistribution(DistributionTable(dist));
    forall i | 0 <= i < |dist| ensures back[i] == dist[i] {
      ParseNatToString(dist[i].1);
    }
  }

  // ----------------------------------------------------------- sample table

  /** `str(r.get(h, ''))`: the empty string for an absent key, otherwise the
      printed value (a missing value prints as `None`). */
  function CellText(r: Row, h: string, showReal: real -> string): (s: string)
    ensures h !in Keys(r) ==> s == ""
    ensures h in Keys(r) ==> exists v :: (h, v) in r && s == Display(v, showReal)
  {
    match Get(r, h)
    case None => ""
    case Some(v) => Display(v, showReal)
  }

  /** The "Data Table (Sample)" table: the first row's keys as headers, then
      at most `SAMPLE_LIMIT` rows, one cell per header. */
  function SampleTable(rows: seq<Row>, showReal: real -> string): (cells: seq<seq<string>>)
    requires rows != []
    ensures |cells| == 1 + (if |rows| < SAMPLE_LIMIT then |rows| else SAMPLE_LIMIT)
    ensures cells[0] == Keys(rows[0])
    ensures forall i | 1 <= i < |cells| :: |cells[i]| == |cells[0]|
    ensures forall i, j | 1 <= i < |cells| && 0 <= j < |cells[0]| ::
              cells[i][j] == CellText(rows[i - 1], cells[0][j], showReal)
  {
    var headers := Keys(rows[0]);
    var shown := if |rows| < SAMPLE_LIMIT then rows else rows[..SAMPLE_LIMIT];
    [headers] + seq(|shown|, i requires 0 <= i < |shown| =>
                      seq(|headers|, j requires 0 <= j < |headers| => CellText(shown[i], headers[j], showReal)))
  }

  /** One width per column, all equal, together filling four and a half
      inches; without columns nothing is divided. */
  function ColumnWidths(n: nat): (w: seq<real>)
    ensures |w| == n
    ensures forall i, j | 0 <= i < n && 0 <= j < n :: w[i] == w[j]
    ensures n > 0 ==> RealSum(w) == 4.5 * INCH
  {
    var width := if n > 0 then 4.5 * INCH / (n as real) else 1.0 * INCH;
    var w := seq(n, _ => width);
    ConstantSum(w, width);
    w
  }

  lemma {:induction false} ConstantSum(w: seq<real>, c: real)
    requires forall i | 0 <= i < |w| :: w[i] == c
    ensures RealSum(w) == (|w| as real) * c
  {
    if w != [] {
      var n := |w| - 1;
      assert forall i | 0 <= i < n :: w[..n][i] == w[i];
      ConstantSum(w[..n], c);
    }
  }

  /** The last section: a sample table, or the placeholder paragraph when the
      dataset has no rows. */
  function SampleSection(rows: seq<Row>, showReal: real -> string): (e: Element)
    ensures rows == [] ==> e == Paragraph(Normal, NO_ROWS)
    ensures rows != [] ==> e == Table(SampleTable(rows, showReal), ColumnWidths(|Keys(rows[0])|))
  {
    if rows == [] then Paragraph(Normal, NO_ROWS)
    else Table(SampleTable(rows, showReal), ColumnWidths(|Keys(rows[0])|))
  }

  /** The sample section is the placeholder exactly when there are no rows;
      otherwise a table whose header row is the first row's keys, holding at
      most `SAMPLE_LIMIT` rows printed cell by cell, in columns of equal
      width that together span four and a half inches. */
  lemma SampleSectionShowsRows(rows: seq<Row>, showReal: real -> string)
    ensures var e := SampleSection(rows, showReal);
            && (e == Paragraph(Normal, NO_ROWS) <==> rows == [])
            && (rows != [] ==>
                  && e.Table?
                  && e.cells[0] == Keys(rows[0])
                  && |e.cells| == 1 + (if |rows| < SAMPLE_LIMIT then |rows| else SAMPLE_LIMIT)
                  && (forall i, j | 1 <= i < |e.cells| && 0 <= j < |e.cells[0]| ::
                        e.cells[i][j] == CellText(rows[i - 1], e.cells[0][j], showReal))
                  && |e.colWidths| == |e.cells[0]|
                  && (forall i, j | 0 <= i < j < |e.colWidths| :: e.colWidths[i] == e.colWidths[j])
                  && (e.cells[0] != [] ==> RealSum(e.colWidths) == 4.5 * INCH))
  {
  }

  // ---------------------------------------------------------------- report

  /** The texts of the section headings, in document order. */
  function Headings(doc: seq<Element>): seq<string>
  {
    if doc == [] then []
    else
      var e := doc[|doc| - 1];
      Headings(doc[..|doc| - 1]) + (if e.Paragraph? && e.style == Heading2 then [e.text] else [])
  }

  lemma {:induction false} HeadingsConcat(a: seq<Element>, b: seq<Element>)
    ensures Headings(a + b) == Headings(a) + Headings(b)
  {
    if b == [] {
      assert a + b == a;
    } else {
      var n := |b| - 1;
      assert (a + b)[..|a + b| - 1] == a + b[..n];
      HeadingsConcat(a, b[..n]);
    }
  }

  const DATASET_HEADING: string := "Dataset: "
  const SUMMARY_HEADING: string := "Summary Statistics"
  const DISTRIBUTION_HEADING: string := "Equipment Type Distribution"
  const SAMPLE_HEADING: string := "Data Table (Sample)"

  /** Title, dataset name and creation time. */
  function Opening(d: Dataset): (b: seq<Element>)
    ensures |b| == 5
    ensures b[0] == Paragraph(Title, REPORT_TITLE) && b[1] == Spacer(0.3 * INCH)
    ensures b[2] == Paragraph(Heading2, DATASET_HEADING + d.name)
    ensures b[3] == Paragraph(Normal, "Generated: " + FormatTimestamp(d.createdAt))
    ensures b[4] == Spacer(0.2 * INCH)
    ensures Headings(b) == [DATASET_HEADING + d.name]
  {
    var b := [Paragraph(Title, REPORT_TITLE),
              Spacer(0.3 * INCH),
              Paragraph(Heading2, DATASET_HEADING + d.name),
              Paragraph(Normal, "Generated: " + FormatTimestamp(d.createdAt)),
              Spacer(0.2 * INCH)];
    assert Headings(b[..1]) == [] by { assert b[..1][..0] == []; }
    assert Headings(b[..2]) == [] by { assert b[..2][..1] == b[..1]; }
    assert Headings(b[..3]) == [DATASET_HEADING + d.name] by { assert b[..3][..2] == b[..2]; }
    assert Headings(b[..4]) == [DATASET_HEADING + d.name] by { assert b[..4][..3] == b[..3]; }
    assert b[..5] == b;
    b
  }

  /** A titled table followed by a spacer. */
  function TableSection(heading: string, cells: seq<seq<string>>, widths: seq<real>): (b: seq<Element>)
    ensures |b| == 3
    ensures b[0] == Paragraph(Heading2, heading) && b[1] == Table(cells, widths) && b[2] == Spacer(0.3 * INCH)
    ensures Headings(b) == [heading]
  {
    var b := [Paragraph(Heading2, heading), Table(cells, widths), Spacer(0.3 * INCH)];
    assert Headings(b[..1]) == [heading] by { assert b[..1][..0] == []; }
    assert Headings(b[..2]) == [heading] by { assert b[..2][..1] == b[..1]; }
    assert b[..3] == b;
    b
  }

  /** The titled data sample that ends the report. */
  function Closing(rows: seq<Row>, showReal: real -> string): (b: seq<Element>)
    ensures |b| == 2
    ensures Headings(b) == [SAMPLE_HEADING]
    ensures b[0] == Paragraph(Heading2, SAMPLE_HEADING) && b[1] == SampleSection(rows, showReal)
  {
    var b := [Paragraph(Heading2, SAMPLE_HEADING), SampleSection(rows, showReal)];
    assert Headings(b[..1]) == [SAMPLE_HEADING] by { assert b[..1][..0] == []; }
    assert b[..2] == b;
    b
  }

  /** `build_pdf_report`, with `showReal` standing for `str()` of a float.
      It only reads the dataset. */
  function BuildReport(d: Dataset, showReal: real -> string): (doc: seq<Element>)
    ensures |doc| == 13
    ensures doc[0] == Paragraph(Title, REPORT_TITLE) && doc[1] == Spacer(0.3 * INCH)
    ensures doc[2] == Paragraph(Heading2, DATASET_HEADING + d.name)
    ensures doc[3] == Paragraph(Normal, "Generated: " + FormatTimestamp(d.createdAt))
    ensures doc[4] == Spacer(0.2 * INCH) && doc[5] == Paragraph(Heading2, SUMMARY_HEADING)
    ensures doc[7] == Spacer(0.3 * INCH) && doc[8] == Paragraph(Heading2, DISTRIBUTION_HEADING)
    ensures doc[10] == Spacer(0.3 * INCH) && doc[11] == Paragraph(Heading2, SAMPLE_HEADING)
    ensures Headings(doc) == [DATASET_HEADING + d.name, SUMMARY_HEADING,
                              DISTRIBUTION_HEADING, SAMPLE_HEADING]
    ensures doc[6].Table? && doc[6].cells == SummaryTable(d, showReal)
    ensures doc[9].Table? && doc[9].cells == DistributionTable(d.typeDistribution)
    ensures doc[12] == SampleSection(d.rawRows, showReal)
  {
    Assemble(Opening(d),
             TableSection(SUMMARY_HEADING, SummaryTable(d, showReal), [3.0 * INCH, 3.0 * INCH]),
             TableSection(DISTRIBUTION_HEADING, DistributionTable(d.typeDistribution),
                          [3.0 * INCH, 2.0 * INCH]),
             Closing(d.rawRows, showReal))
  }

  /** Puts the four parts of the report one after the other. */
  function Assemble(opening: seq<Element>, summary: seq<Element>,
                    distribution: seq<Element>, sample: seq<Element>): (doc: seq<Element>)
    requires |opening| == 5 && |summary| == 3 && |distribution| == 3 && |sample| == 2
    requires |Headings(opening)| == |Headings(summary)| == 1
    requires |Headings(distribution)| == |Headings(sample)| == 1
    ensures |doc| == 13
    ensures forall k | 0 <= k < 5 :: doc[k] == opening[k]
    ensures forall k | 0 <= k < 3 :: doc[5 + k] == summary[k]
    ensures forall k | 0 <= k < 3 :: doc[8 + k] == distribution[k]
    ensures forall k | 0 <= k < 2 :: doc[11 + k] == sample[k]
    ensures Headings(doc) == [Headings(opening)[0], Headings(summary)[0],
                              Headings(distribution)[0], Headings(sample)[0]]
  {
    var front := opening + summary;
    var body := front + distribution;
    HeadingsConcat(opening, summary);
    HeadingsConcat(front, distribution);
    HeadingsConcat(body, sample);
    body + sample
  }

  /** The summary and distribution tables of the report state the stored
      summary: the count, each average or `N/A`, and every label with its
      count in mapping order. */
  lemma ReportTablesReadBack(d: Dataset, showReal: real -> string)
    requires forall x :: showReal(x) != NOT_AVAILABLE
    ensures var doc := BuildReport(d, showReal);
            && ParseNat(doc[6].cells[1][1]) == d.totalCount
            && (doc[6].cells[2][1] == NOT_AVAILABLE <==> d.avgFlowrate.None?)
            && (doc[6].cells[3][1] == NOT_AVAILABLE <==> d.avgPressure.None?)
            && (doc[6].cells[4][1] == NOT_AVAILABLE <==> d.avgTemperature.None?)
            && ReadDistribution(doc[9].cells) == d.typeDistribution
            && IsDecimal(doc[6].cells[1][1])
            && forall i | 1 <= i < |doc[9].cells| :: IsDecimal(doc[9].cells[i][1])
  {
    SummaryTableStatesSummary(d, showReal);
    DistributionRoundTrip(d.typeDistribution);
  }
}

=== FILE: retention.dfy ===
/** The bounded history of `views.py`: after every save only the
    `MAX_STORED_DATASETS` newest datasets of the uploader's scope survive
    (`trim_to_last_n`), and the history endpoint lists the newest ones. The
    database is a sequence of datasets in insertion order. */
module Retention {
  import opened Base
  import opened Sorting
  import opened Models

  const MAX_STORED_DATASETS: nat := 5

  /** `request.user`: a logged-in user, or nobody (an anonymous user, or no
      user passed to `trim_to_last_n`). */
  datatype Caller = Anonymous | User(uid: UserId)

  /** The datasets a trim on behalf of `caller` looks at: the caller's own
      uploads, or every dataset when there is no logged-in user. */
  predicate InScope(d: Dataset, caller: Caller)
  {
    caller.Anonymous? || d.uploadedBy == Some(caller.uid)
  }

  function InScopeOf(caller: Caller): Dataset -> bool
  {
    (d: Dataset) => InScope(d, caller)
  }

  function OutOfScopeOf(caller: Caller): Dataset -> bool
  {
    (d: Dataset) => !InScope(d, caller)
  }

  function Spared(doomed: set<nat>): Dataset -> bool
  {
    (d: Dataset) => d.id !in doomed
  }

  function Id(d: Dataset): nat { d.id }

  /** Primary keys are unique. */
  predicate UniqueIds(s: seq<Dataset>)
  {
    DistinctBy(s, Id)
  }

  function Min(a: nat, b: nat): nat { if a <= b then a else b }

  lemma NewerOrSameIsTotalOrder()
    ensures Total(NewerOrSame) && Transitive(NewerOrSame)
  {
  }

  /** `order_by('-created_at')`: a reordering in which every dataset is
      listed no later than the older ones. */
  function NewestFirst(s: seq<Dataset>): (r: seq<Dataset>)
    ensures multiset(r) == multiset(s)
    ensures Sorted(r, NewerOrSame)
  {
    NewerOrSameIsTotalOrder();
    var r := InsertionSort(s, NewerOrSame);
    SortedFromAdjacent(r, NewerOrSame);
    r
  }

  /** The datasets of the caller's scope, in insertion order. */
  function Scoped(s: seq<Dataset>, caller: Caller): seq<Dataset>
  {
    Filter(s, InScopeOf(caller))
  }

  /** The ids of the scope's datasets that stand past the first
      `MAX_STORED_DATASETS` in newest-first order. */
  function Doomed(s: seq<Dataset>, caller: Caller): set<nat>
  {
    var ranked := NewestFirst(Scoped(s, caller));
    if |ranked| <= MAX_STORED_DATASETS then {} else KeySet(ranked[MAX_STORED_DATASETS..], Id)
  }

  /** `trim_to_last_n(user)`: deletes the doomed datasets and nothing else. */
  function TrimToLastN(s: seq<Dataset>, caller: Caller): (r: seq<Dataset>)
    ensures forall d | d in r :: d in s
  {
    FilterMembers(s, Spared(Doomed(s, caller)));
    Filter(s, Spared(Doomed(s, caller)))
  }

  /** The ids of the datasets of `s` listed strictly before `d`. */
  function NewerIds(s: seq<Dataset>, d: Dataset): set<nat>
  {
    set e | e in s && Newer(e, d) :: e.id
  }

  /** How many datasets of the caller's scope are newer than `d`: its
      position in the scope's newest-first listing. */
  function Rank(d: Dataset, s: seq<Dataset>, caller: Caller): nat
  {
    |NewerIds(Scoped(s, caller), d)|
  }

  /** Two datasets of a store with unique ids that share an id are the same. */
  lemma SameIdSameDataset(s: seq<Dataset>, a: Dataset, b: Dataset)
    requires UniqueIds(s) && a in s && b in s && a.id == b.id
    ensures a == b
  {
    var i :| 0 <= i < |s| && s[i] == a;
    var j :| 0 <= j < |s| && s[j] == b;
  }

  /** In a newest-first listing with unique ids, the datasets newer than the
      one at position `i` are exactly the `i` listed before it. */
  lemma PositionIsRank(r: seq<Dataset>, i: nat)
    requires Sorted(r, NewerOrSame) && UniqueIds(r) && i < |r|
    ensures NewerIds(r, r[i]) == KeySet(r[..i], Id)
    ensures |NewerIds(r, r[i])| == i
  {
    forall x | x in NewerIds(r, r[i]) ensures x in KeySet(r[..i], Id) {
      var e :| e in r && Newer(e, r[i]) && e.id == x;
      var j :| 0 <= j < |r| && r[j] == e;
      assert j < i;
      assert r[..i][j] == e;
    }
    forall x | x in KeySet(r[..i], Id) ensures x in NewerIds(r, r[i]) {
      var j :| 0 <= j < i && Id(r[..i][j]) == x;
      assert r[..i][j] == r[j];
      assert Id(r[j]) != Id(r[i]);
      assert NewerOrSame(r[j], r[i]);
    }
    assert DistinctBy(r[..i], Id) by {
      forall a, b | 0 <= a < b < i ensures Id(r[..i][a]) != Id(r[..i][b]) {
        assert r[..i][a] == r[a] && r[..i][b] == r[b];
      }
    }
    DistinctByCard(r[..i], Id);
  }

  /** The facts about the scope and its listing every trim lemma starts from. */
  lemma ScopeFacts(s: seq<Dataset>, caller: Caller)
    requires UniqueIds(s)
    ensures forall d :: d in Scoped(s, caller) <==> d in s && InScope(d, caller)
    ensures forall d :: d in NewestFirst(Scoped(s, caller)) <==> d in s && InScope(d, caller)
    ensures UniqueIds(Scoped(s, caller)) && UniqueIds(NewestFirst(Scoped(s, caller)))
    ensures |NewestFirst(Scoped(s, caller))| == |Scoped(s, caller)|
  {
    var sc := Scoped(s, caller);
    var ranked := NewestFirst(sc);
    FilterMembers(s, InScopeOf(caller));
    FilterKeepsDistinct(s, InScopeOf(caller), Id);
    PermutationKeepsDistinct(sc, ranked, Id);
    forall d ensures d in ranked <==> d in sc {
      assert d in multiset(ranked) <==> d in multiset(sc);
    }
    assert |ranked| == |multiset(ranked)| == |multiset(sc)| == |sc|;
  }

  /** A dataset's rank is its position in the scope's newest-first listing. */
  lemma RankInListing(s: seq<Dataset>, caller: Caller, i: nat)
    requires UniqueIds(s)
    requires i < |NewestFirst(Scoped(s, caller))|
    ensures Rank(NewestFirst(Scoped(s, caller))[i], s, caller) == i
  {
    var sc := Scoped(s, caller);
    var ranked := NewestFirst(sc);
    ScopeFacts(s, caller);
    PositionIsRank(ranked, i);
    assert NewerIds(sc, ranked[i]) == NewerIds(ranked, ranked[i]);
  }

  /** `trim_to_last_n` keeps exactly the datasets outside the caller's scope
      and the `MAX_STORED_DATASETS` newest inside it. */
  lemma TrimKeepsNewest(s: seq<Dataset>, caller: Caller, d: Dataset)
    requires UniqueIds(s)
    ensures d in TrimToLastN(s, caller) <==>
              d in s && (!InScope(d, caller) || Rank(d, s, caller) < MAX_STORED_DATASETS)
  {
    FilterMembers(s, Spared(Doomed(s, caller)));
    if d in s && InScope(d, caller) {
      DoomedInScope(s, caller, d);
    } else if d in s {
      DoomedOutOfScope(s, caller, d);
    }
  }

  /** A dataset of the scope is doomed exactly when at least
      `MAX_STORED_DATASETS` datasets of the scope are newer. */
  lemma DoomedInScope(s: seq<Dataset>, caller: Caller, d: Dataset)
    requires UniqueIds(s) && d in s && InScope(d, caller)
    ensures d.id in Doomed(s, caller) <==> Rank(d, s, caller) >= MAX_STORED_DATASETS
  {
    var ranked := NewestFirst(Scoped(s, caller));
    ScopeFacts(s, caller);
    var i :| 0 <= i < |ranked| && ranked[i] == d;
    RankInListing(s, caller, i);
    LateIds(ranked, i);
  }

  /** In a listing with unique ids, an entry's id is among those listed past
      position `MAX_STORED_DATASETS` exactly when the entry itself is. */
  lemma LateIds(r: seq<Dataset>, i: nat)
    requires UniqueIds(r) && i < |r|
    ensures r[i].id in (if |r| <= MAX_STORED_DATASETS then {} else KeySet(r[MAX_STORED_DATASETS..], Id))
            <==> i >= MAX_STORED_DATASETS
  {
    if |r| > MAX_STORED_DATASETS {
      var late := r[MAX_STORED_DATASETS..];
      if i >= MAX_STORED_DATASETS {
        assert late[i - MAX_STORED_DATASETS] == r[i];
      }
      if r[i].id in KeySet(late, Id) {
        var j :| 0 <= j < |late| && Id(late[j]) == r[i].id;
        assert late[j] == r[MAX_STORED_DATASETS + j];
      }
    }
  }

  /** No dataset outside the scope is doomed. */
  lemma DoomedOutOfScope(s: seq<Dataset>, caller: Caller, d: Dataset)
    requires UniqueIds(s) && d in s && !InScope(d, caller)
    ensures d.id !in Doomed(s, caller)
  {
    var ranked := NewestFirst(Scoped(s, caller));
    ScopeFacts(s, caller);
    if d.id in Doomed(s, caller) {
      var j :| 0 <= j < |ranked| - MAX_STORED_DATASETS
               && Id(ranked[MAX_STORED_DATASETS..][j]) == d.id;
      var e := ranked[MAX_STORED_DATASETS..][j];
      assert e in ranked;
      SameIdSameDataset(s, e, d);
    }
  }

  /** A dataset of the trimmed scope sits among the first listed ones. */
  lemma SurvivorPosition(s: seq<Dataset>, caller: Caller, d: Dataset) returns (i: nat)
    requires UniqueIds(s)
    requires d in Scoped(TrimToLastN(s, caller), caller)
    ensures i < Min(MAX_STORED_DATASETS, |NewestFirst(Scoped(s, caller))|)
    ensures NewestFirst(Scoped(s, caller))[i] == d
  {
    var ranked := NewestFirst(Scoped(s, caller));
    FilterMembers(TrimToLastN(s, caller), InScopeOf(caller));
    ScopeFacts(s, caller);
    i :| 0 <= i < |ranked| && ranked[i] == d;
    RankInListing(s, caller, i);
    TrimKeepsNewest(s, caller, d);
  }

  /** Each of the first listed datasets survives in the trimmed scope. */
  lemma ListedSurvives(s: seq<Dataset>, caller: Caller, i: nat)
    requires UniqueIds(s)
    requires i < Min(MAX_STORED_DATASETS, |NewestFirst(Scoped(s, caller))|)
    ensures NewestFirst(Scoped(s, caller))[i] in Scoped(TrimToLastN(s, caller), caller)
  {
    var d := NewestFirst(Scoped(s, caller))[i];
    FilterMembers(TrimToLastN(s, caller), InScopeOf(caller));
    ScopeFacts(s, caller);
    RankInListing(s, caller, i);
    TrimKeepsNewest(s, caller, d);
  }

  /** The trimmed scope holds the first listed datasets of the scope. */
  lemma TrimmedScopeKeys(s: seq<Dataset>, caller: Caller)
    requires UniqueIds(s)
    ensures var ranked := NewestFirst(Scoped(s, caller));
            KeySet(Scoped(TrimToLastN(s, caller), caller), Id)
              == KeySet(ranked[..Min(MAX_STORED_DATASETS, |ranked|)], Id)
  {
    var ranked := NewestFirst(Scoped(s, caller));
    var top := ranked[..Min(MAX_STORED_DATASETS, |ranked|)];
    forall x | x in KeySet(Scoped(TrimToLastN(s, caller), caller), Id) ensures x in KeySet(top, Id) {
      SurvivorKeyListed(s, caller, x);
    }
    forall x | x in KeySet(top, Id) ensures x in KeySet(Scoped(TrimToLastN(s, caller), caller), Id) {
      ListedKeySurvives(s, caller, x);
    }
  }

  lemma SurvivorKeyListed(s: seq<Dataset>, caller: Caller, x: nat)
    requires UniqueIds(s)
    requires x in KeySet(Scoped(TrimToLastN(s, caller), caller), Id)
    ensures var ranked := NewestFirst(Scoped(s, caller));
            x in KeySet(ranked[..Min(MAX_STORED_DATASETS, |ranked|)], Id)
  {
    var st := Scoped(TrimToLastN(s, caller), caller);
    var ranked := NewestFirst(Scoped(s, caller));
    var top := ranked[..Min(MAX_STORED_DATASETS, |ranked|)];
    var k :| 0 <= k < |st| && Id(st[k]) == x;
    var i := SurvivorPosition(s, caller, st[k]);
    assert top[i] == st[k];
  }

  lemma ListedKeySurvives(s: seq<Dataset>, caller: Caller, x: nat)
    requires UniqueIds(s)
    requires var ranked := NewestFirst(Scoped(s, caller));
             x in KeySet(ranked[..Min(MAX_STORED_DATASETS, |ranked|)], Id)
    ensures x in KeySet(Scoped(TrimToLastN(s, caller), caller), Id)
  {
    var st := Scoped(TrimToLastN(s, caller), caller);
    var ranked := NewestFirst(Scoped(s, caller));
    var top := ranked[..Min(MAX_STORED_DATASETS, |ranked|)];
    var i :| 0 <= i < |top| && Id(top[i]) == x;
    assert top[i] == ranked[i];
    ListedSurvives(s, caller, i);
    var k :| 0 <= k < |st| && st[k] == ranked[i];
  }

  /** After a trim the caller's scope holds `MAX_STORED_DATASETS` datasets,
      or all of them when it held fewer. */
  lemma TrimCap(s: seq<Dataset>, caller: Caller)
    requires UniqueIds(s)
    ensures |Scoped(TrimToLastN(s, caller), caller)| == Min(MAX_STORED_DATASETS, |Scoped(s, caller)|)
  {
    var t := TrimToLastN(s, caller);
    var st := Scoped(t, caller);
    var ranked := NewestFirst(Scoped(s, caller));
    var top := ranked[..Min(MAX_STORED_DATASETS, |ranked|)];
    ScopeFacts(s, caller);
    FilterKeepsDistinct(s, Spared(Doomed(s, caller)), Id);
    FilterKeepsDistinct(t, InScopeOf(caller), Id);
    assert DistinctBy(top, Id) by {
      forall a, b | 0 <= a < b < |top| ensures Id(top[a]) != Id(top[b]) {
        assert top[a] == ranked[a] && top[b] == ranked[b];
      }
    }
    TrimmedScopeKeys(s, caller);
    DistinctByCard(st, Id);
    DistinctByCard(top, Id);
  }

  /** A store whose scope is already within the limit is left as it is. */
  lemma TrimWithinLimit(s: seq<Dataset>, caller: Caller)
    requires UniqueIds(s)
    requires |Scoped(s, caller)| <= MAX_STORED_DATASETS
    ensures TrimToLastN(s, caller) == s
  {
    ScopeFacts(s, caller);
    assert Doomed(s, caller) == {};
    FilterAll(s, Spared({}));
  }

  /** Trimming twice with no save in between deletes nothing the second time. */
  lemma TrimIdempotent(s: seq<Dataset>, caller: Caller)
    requires UniqueIds(s)
    ensures TrimToLastN(TrimToLastN(s, caller), caller) == TrimToLastN(s, caller)
  {
    var t := TrimToLastN(s, caller);
    FilterKeepsDistinct(s, Spared(Doomed(s, caller)), Id);
    TrimCap(s, caller);
    TrimWithinLimit(t, caller);
  }

  /** A trim on behalf of a logged-in user leaves every other user's datasets
      (and the anonymous ones) exactly as they were. */
  lemma TrimSparesOtherScopes(s: seq<Dataset>, caller: Caller)
    requires UniqueIds(s)
    ensures Filter(TrimToLastN(s, caller), OutOfScopeOf(caller)) == Filter(s, OutOfScopeOf(caller))
  {
    var doomed := Doomed(s, caller);
    FilterMembers(s, Spared(doomed));
    forall i | 0 <= i < |s| && OutOfScopeOf(caller)(s[i]) ensures Spared(doomed)(s[i]) {
      TrimKeepsNewest(s, caller, s[i]);
    }
    FilterFilter(s, Spared(doomed), OutOfScopeOf(caller));
  }

  /** `HistoryListView.get`: the `MAX_STORED_DATASETS` newest datasets of the
      whole store, newest first, whoever uploaded them. */
  function History(s: seq<Dataset>): (h: seq<Dataset>)
    ensures |h| == Min(MAX_STORED_DATASETS, |s|)
    ensures Sorted(h, NewerOrSame)
  {
    var r := NewestFirst(s);
    assert |r| == |multiset(r)| == |multiset(s)| == |s|;
    r[..Min(MAX_STORED_DATASETS, |r|)]
  }

  /** The history lists exactly the datasets with fewer than
      `MAX_STORED_DATASETS` newer ones in the store, so it shows what a trim
      without a user would keep. */
  lemma HistoryIsNewest(s: seq<Dataset>, d: Dataset)
    requires UniqueIds(s)
    ensures d in History(s) <==> d in s && Rank(d, s, Anonymous) < MAX_STORED_DATASETS
    ensures d in History(s) <==> d in TrimToLastN(s, Anonymous)
  {
    FilterAll(s, InScopeOf(Anonymous));
    TrimKeepsNewest(s, Anonymous, d);
    if d in History(s) {
      HistoryMemberIsNewest(s, d);
    }
    if d in s && Rank(d, s, Anonymous) < MAX_STORED_DATASETS {
      NewestIsHistoryMember(s, d);
    }
  }

  lemma HistoryMemberIsNewest(s: seq<Dataset>, d: Dataset)
    requires UniqueIds(s)
    requires Scoped(s, Anonymous) == s
    requires d in History(s)
    ensures d in s && Rank(d, s, Anonymous) < MAX_STORED_DATASETS
  {
    var i := HistoryIndex(s, d);
    RankInListing(s, Anonymous, i);
  }

  /** Where a dataset of the history sits in the newest-first listing. */
  lemma HistoryIndex(s: seq<Dataset>, d: Dataset) returns (i: nat)
    requires d in History(s)
    ensures d in s
    ensures i < MAX_STORED_DATASETS && i < |NewestFirst(s)| && NewestFirst(s)[i] == d
  {
    var r := NewestFirst(s);
    var h := History(s);
    assert h == r[..|h|];
    i :| 0 <= i < |h| && h[i] == d;
    assert r[i] == d;
    assert d in multiset(r);
  }

  lemma NewestIsHistoryMember(s: seq<Dataset>, d: Dataset)
    requires UniqueIds(s)
    requires Scoped(s, Anonymous) == s
    requires d in s && Rank(d, s, Anonymous) < MAX_STORED_DATASETS
    ensures d in History(s)
  {
    var r := NewestFirst(s);
    ScopeFacts(s, Anonymous);
    var i :| 0 <= i < |r| && r[i] == d;
    RankInListing(s, Anonymous, i);
    assert History(s)[i] == d;
  }
}

=== FILE: services.dfy ===
/** `parse_and_analyze`: validates an uploaded table and computes the
    summary that is stored with it (row count, column means, type counts and
    the normalised rows). The CSV tokeniser, pandas' number parsing, Python's
    `round(x, 4)` and float printing are not modelled; the table arrives
    already tokenised and the three numeric primitives arrive as `Numerics`. */
module Services {
  import opened Base
  import opened Text
  import opened Models
  import opened Sorting
  import Tally

  /** The columns every upload must have (after stripping the header names). */
  const EXPECTED_COLUMNS: seq<string> :=
    ["Equipment Name", "Type", "Flowrate", "Pressure", "Temperature"]

  /** The columns coerced to numbers, with unparsable values made missing. */
  const NUMERIC_COLUMNS: seq<string> := ["Flowrate", "Pressure", "Temperature"]

  /** A tokenised CSV file: the header names and one list of cells per data
      line. A line shorter than the header is padded with missing values. */
  datatype Table = Table(header: seq<string>, records: seq<seq<Cell>>)

  /** What `pd.read_csv` produced: a table, or the reason it raised. */
  datatype Csv = Unreadable(reason: string) | Readable(table: Table)

  /** The numeric primitives the analysis borrows from pandas and Python:
      parsing a string as a number (`None` when it is not one), `round(x, 4)`
      and `str(x)` of a float. */
  datatype Numerics = Numerics(parse: string -> Option<real>, round4: real -> real,
                               showReal: real -> string)

  /** The `ValueError`s `parse_and_analyze` raises. */
  datatype AnalysisError =
    | InvalidCsv(reason: string)
    | MissingColumns(missing: seq<string>, expected: seq<string>)

  const INVALID_CSV: string := "Invalid CSV: "
  const MISSING_COLUMNS: string := "Missing columns: "
  const EXPECTED_NOTE: string := ". Expected: "

  /** The text of an error, as the upload handler reports it: the kind of
      error first, then the reader's reason or the two column lists. */
  function ErrorMessage(e: AnalysisError): (m: string)
    ensures e.InvalidCsv? <==> |INVALID_CSV| <= |m| && m[..|INVALID_CSV|] == INVALID_CSV
    ensures e.InvalidCsv? ==> m[|INVALID_CSV|..] == e.reason
    ensures e.MissingColumns? ==>
              && |MISSING_COLUMNS| + |ListRepr(e.missing)| <= |m|
              && m[..|MISSING_COLUMNS|] == MISSING_COLUMNS
              && m[|MISSING_COLUMNS|..|MISSING_COLUMNS| + |ListRepr(e.missing)|] == ListRepr(e.missing)
              && m[|MISSING_COLUMNS| + |ListRepr(e.missing)|..] == EXPECTED_NOTE + ListRepr(e.expected)
  {
    match e
    case InvalidCsv(reason) => INVALID_CSV + reason
    case MissingColumns(missing, expected) =>
      var m := MISSING_COLUMNS + ListRepr(missing) + EXPECTED_NOTE + ListRepr(expected);
      assert m[0] != INVALID_CSV[0];
      m
  }

  /** The dictionary `parse_and_analyze` returns. */
  datatype Summary = Summary(
    totalCount: nat,
    avgFlowrate: Option<real>,
    avgPressure: Option<real>,
    avgTemperature: Option<real>,
    typeDistribution: Distribution,
    rawRows: seq<Row>)

  /** `normalize_columns`: every header name stripped of surrounding whitespace. */
  function NormalizeColumns(header: seq<string>): (columns: seq<string>)
    ensures |columns| == |header|
    ensures forall i | 0 <= i < |columns| :: columns[i] == Strip(header[i]) && Trimmed(columns[i])
  {
    seq(|header|, i requires 0 <= i < |header| => Strip(header[i]))
  }

  /** The expected columns absent from `columns`, in `EXPECTED_COLUMNS` order. */
  function MissingFrom(columns: seq<string>): (missing: seq<string>)
    ensures forall c :: c in missing <==> c in EXPECTED_COLUMNS && c !in columns
    ensures InOrderOf(missing, ExpectedPosition)
  {
    var absent := c => c !in columns;
    FilterMembers(EXPECTED_COLUMNS, absent);
    ExpectedInOrder();
    FilterKeepsOrder(EXPECTED_COLUMNS, absent, ExpectedPosition);
    Filter(EXPECTED_COLUMNS, absent)
  }

  /** Where a name stands in `EXPECTED_COLUMNS`. */
  function ExpectedPosition(c: string): int
  {
    ColumnIndex(EXPECTED_COLUMNS, c)
  }

  /** Each expected column stands at its own position, so the list is in
      its own order with no name twice. */
  lemma ExpectedInOrder()
    ensures InOrderOf(EXPECTED_COLUMNS, ExpectedPosition)
  {
    var e := EXPECTED_COLUMNS;
    assert e[0][0] == 'E' && e[1][0] == 'T' && e[2][0] == 'F' && e[3][0] == 'P' && e[4][1] == 'e';
    assert e[3][1] == 'r';
    forall k | 0 <= k < |e| ensures ExpectedPosition(e[k]) == k {
      IndexOfDistinct(e, k);
    }
  }

  /** In a list without repeats, a name's first position is its position. */
  lemma {:induction false} IndexOfDistinct(s: seq<string>, k: nat)
    requires forall i, j | 0 <= i < j < |s| :: s[i] != s[j]
    requires k < |s|
    ensures ColumnIndex(s, s[k]) == k
  {
    if k > 0 {
      assert s[0] != s[k];
      assert s[1..][k - 1] == s[k];
      IndexOfDistinct(s[1..], k - 1);
    }
  }

  /** Nothing is missing exactly when every expected column is present. */
  lemma NothingMissing(columns: seq<string>)
    ensures MissingFrom(columns) == [] <==> forall c | c in EXPECTED_COLUMNS :: c in columns
  {
    var missing := MissingFrom(columns);
    if missing != [] {
      assert missing[0] in missing;
    }
  }

  /** The position of the first column called `name`, or `|columns|`. */
  function ColumnIndex(columns: seq<string>, name: string): (j: nat)
    ensures j <= |columns|
    ensures j < |columns| <==> name in columns
    ensures j < |columns| ==> columns[j] == name
  {
    if columns == [] then 0
    else if columns[0] == name then 0
    else 1 + ColumnIndex(columns[1..], name)
  }

  /** The `j`-th cell of a record; a short record is padded with missing values. */
  function CellAt(record: seq<Cell>, j: nat): Cell
  {
    if j < |record| then record[j] else Null
  }

  /** Lenient numeric coercion of one cell: a number stays, a string
      becomes the number it spells, and anything else becomes missing. */
  function Coerce(c: Cell, num: Numerics): (d: Cell)
    ensures !d.Text?
    ensures d.Null? <==> c.Null? || (c.Text? && num.parse(c.text).None?)
    ensures c.Num? ==> d == c
    ensures c.Text? && num.parse(c.text).Some? ==> d == Num(num.parse(c.text).value)
  {
    match c
    case Null => Null
    case Num(_) => c
    case Text(s) =>
      match num.parse(s)
      case Some(x) => Num(x)
      case None => Null
  }

  /** A cell of column `name` after the numeric columns were coerced. */
  function Coerced(name: string, c: Cell, num: Numerics): Cell
  {
    if name in NUMERIC_COLUMNS then Coerce(c, num) else c
  }

  /** `df[name]` after coercion: the named column's cell in every record. */
  function Column(t: Table, columns: seq<string>, name: string, num: Numerics): (col: seq<Cell>)
    ensures |col| == |t.records|
  {
    var j := ColumnIndex(columns, name);
    seq(|t.records|, i requires 0 <= i < |t.records| => Coerced(name, CellAt(t.records[i], j), num))
  }

  // ----------------------------------------------------------------- means

  /** The numbers of a column, in order, skipping missing values. */
  function NumbersIn(col: seq<Cell>): (xs: seq<real>)
    ensures |xs| <= |col|
  {
    if col == [] then []
    else
      var n := |col| - 1;
      NumbersIn(col[..n]) + (if col[n].Num? then [col[n].number] else [])
  }

  /** pandas' `Series.mean()`: NaN (here `None`) for an empty series. */
  function Mean(xs: seq<real>): Option<real>
  {
    if xs == [] then None else Some(RealSum(xs) / (|xs| as real))
  }

  /** A column's stored average: the mean of its numbers, rounded to four
      places, or missing when the mean is undefined. */
  function Average(col: seq<Cell>, num: Numerics): (a: Option<real>)
    ensures AverageOf(a, col, num)
  {
    NumbersInCounts(col);
    match Mean(NumbersIn(col))
    case None => None
    case Some(m) => Some(num.round4(m))
  }

  /** How many cells of a column hold a number. */
  function NumberCount(col: seq<Cell>): nat
  {
    if col == [] then 0
    else NumberCount(col[..|col| - 1]) + (if col[|col| - 1].Num? then 1 else 0)
  }

  /** The sum of the numbers of a column, missing values contributing nothing. */
  function NumberTotal(col: seq<Cell>): real
  {
    if col == [] then 0.0
    else
      var c := col[|col| - 1];
      NumberTotal(col[..|col| - 1]) + (if c.Num? then c.number else 0.0)
  }

  lemma {:induction false} NumbersInCounts(col: seq<Cell>)
    ensures |NumbersIn(col)| == NumberCount(col)
    ensures RealSum(NumbersIn(col)) == NumberTotal(col)
    ensures NumberCount(col) == 0 <==> forall i | 0 <= i < |col| :: !col[i].Num?
  {
    if col != [] {
      var n := |col| - 1;
      NumbersInCounts(col[..n]);
      var xs := NumbersIn(col[..n]);
      if col[n].Num? {
        assert (xs + [col[n].number])[..|xs|] == xs;
      } else {
        assert xs + [] == xs;
        assert (forall i | 0 <= i < |col| :: !col[i].Num?) <==>
               (forall i | 0 <= i < n :: !col[..n][i].Num?) by {
          if forall i | 0 <= i < n :: !col[..n][i].Num? {
            forall i | 0 <= i < |col| ensures !col[i].Num? {
              if i < n { assert col[..n][i] == col[i]; }
            }
          }
        }
      }
    }
  }

  /** `avg` is the average of `col`: missing exactly when no cell holds a
      number, otherwise the rounded total over the count of numbers, so
      missing values are skipped rather than counted as zero. */
  predicate AverageOf(avg: Option<real>, col: seq<Cell>, num: Numerics)
  {
    && (avg.None? <==> forall i | 0 <= i < |col| :: !col[i].Num?)
    && (NumberCount(col) > 0 ==> avg == Some(num.round4(NumberTotal(col) / (NumberCount(col) as real))))
  }

  /** The unrounded mean lies between the smallest and largest number. */
  lemma {:induction false} MeanWithinBounds(xs: seq<real>, lo: real, hi: real)
    requires xs != []
    requires forall i | 0 <= i < |xs| :: lo <= xs[i] <= hi
    ensures lo <= Mean(xs).value <= hi
  {
    SumWithinBounds(xs, lo, hi);
    var n := |xs| as real;
    var m := RealSum(xs) / n;
    assert m * n == RealSum(xs);
    if m < lo { assert m * n < lo * n; }
    if m > hi { assert m * n > hi * n; }
  }

  lemma {:induction false} SumWithinBounds(xs: seq<real>, lo: real, hi: real)
    requires forall i | 0 <= i < |xs| :: lo <= xs[i] <= hi
    ensures lo * (|xs| as real) <= RealSum(xs) <= hi * (|xs| as real)
  {
    if xs != [] {
      var n := |xs| - 1;
      assert forall i | 0 <= i < n :: xs[..n][i] == xs[i];
      SumWithinBounds(xs[..n], lo, hi);
      var m := n as real;
      assert RealSum(xs) == RealSum(xs[..n]) + xs[n];
      assert lo * (m + 1.0) == lo * m + lo;
      assert hi * (m + 1.0) == hi * m + hi;
    }
  }

  // ------------------------------------------------------------------ rows

  /** A stored value: a number rounded to four places; a missing value or a
      string as it was. */
  function Normalize(c: Cell, num: Numerics): (d: Cell)
    ensures d.Num? <==> c.Num?
    ensures c.Num? ==> d.number == num.round4(c.number)
    ensures !c.Num? ==> d == c
  {
    match c
    case Num(x) => Num(num.round4(x))
    case _ => c
  }

  /** One stored row: the line's values keyed by the stripped header, in
      header order, after the numeric columns were coerced, missing values
      became `None` and every number was rounded to four places. */
  function RecordRow(columns: seq<string>, record: seq<Cell>, num: Numerics): (row: Row)
    ensures RowOfRecord(row, columns, record, num)
  {
    var row := seq(|columns|, j requires 0 <= j < |columns| =>
      (columns[j], Normalize(Coerced(columns[j], CellAt(record, j), num), num)));
    assert Keys(row) == columns;
    row
  }

  /** `row` is the stored form of `record` under the header `columns`: every
      column in order; no text in a numeric column, and a missing value there
      exactly where coercion finds no number; every number, coerced or not,
      rounded to four places; strings and missing values of the other
      columns as they were. */
  predicate RowOfRecord(row: Row, columns: seq<string>, record: seq<Cell>, num: Numerics)
  {
    && Keys(row) == columns
    && (forall j | 0 <= j < |row| && columns[j] in NUMERIC_COLUMNS ::
          !row[j].1.Text? && (row[j].1.Null? <==> Coerce(CellAt(record, j), num).Null?))
    && (forall j | 0 <= j < |row| && Coerced(columns[j], CellAt(record, j), num).Num? ::
          row[j].1 == Num(num.round4(Coerced(columns[j], CellAt(record, j), num).number)))
    && (forall j | 0 <= j < |row| && columns[j] !in NUMERIC_COLUMNS && !CellAt(record, j).Num? ::
          row[j].1 == CellAt(record, j))
  }

  // ----------------------------------------------------------- type counts

  /** The printed form of every present value of the `Type` column, in row order. */
  function TypeLabels(col: seq<Cell>, num: Numerics): (labels: seq<string>)
    ensures |labels| == |col| - CountNull(col)
  {
    if col == [] then []
    else
      var n := |col| - 1;
      TypeLabels(col[..n], num) + (if col[n].Null? then [] else [Display(col[n], num.showReal)])
  }

  /** The rows whose `Type` is present and prints as `k`. */
  function RowsTyped(col: seq<Cell>, num: Numerics, k: string): set<nat>
  {
    set i | 0 <= i < |col| && !col[i].Null? && Display(col[i], num.showReal) == k
  }

  /** A label occurs once for every row whose `Type` prints as it. */
  lemma {:induction false} TypeLabelCounts(col: seq<Cell>, num: Numerics, k: string)
    ensures Tally.Occurrences(k, TypeLabels(col, num)) == |RowsTyped(col, num, k)|
  {
    if col == [] {
      assert RowsTyped(col, num, k) == {};
    } else {
      var n := |col| - 1;
      TypeLabelCounts(col[..n], num, k);
      RowsTypedSnoc(col, num, k);
      LabelsSnoc(col, num, k);
    }
  }

  lemma RowsTypedSnoc(col: seq<Cell>, num: Numerics, k: string)
    requires col != []
    ensures var n := |col| - 1;
            var hit := !col[n].Null? && Display(col[n], num.showReal) == k;
            |RowsTyped(col, num, k)| == |RowsTyped(col[..n], num, k)| + (if hit then 1 else 0)
  {
    var n := |col| - 1;
    var hit := !col[n].Null? && Display(col[n], num.showReal) == k;
    var before := RowsTyped(col[..n], num, k);
    assert n !in before;
    assert RowsTyped(col, num, k) == before + (if hit then {n} else {});
  }

  lemma LabelsSnoc(col: seq<Cell>, num: Numerics, k: string)
    requires col != []
    ensures var n := |col| - 1;
            var hit := !col[n].Null? && Display(col[n], num.showReal) == k;
            Tally.Occurrences(k, TypeLabels(col, num))
              == Tally.Occurrences(k, TypeLabels(col[..n], num)) + (if hit then 1 else 0)
  {
    var n := |col| - 1;
    var init := TypeLabels(col[..n], num);
    if col[n].Null? {
      assert TypeLabels(col, num) == init + [] == init;
    } else {
      var labels := init + [Display(col[n], num.showReal)];
      assert TypeLabels(col, num) == labels;
      assert labels[..|labels| - 1] == init;
    }
  }

  /** The labels are exactly the printed forms of the present `Type` values. */
  lemma {:induction false} TypeLabelsAreDisplayed(col: seq<Cell>, num: Numerics, k: string)
    ensures k in TypeLabels(col, num) <==>
              exists i | 0 <= i < |col| :: !col[i].Null? && Display(col[i], num.showReal) == k
  {
    if col != [] {
      var n := |col| - 1;
      TypeLabelsAreDisplayed(col[..n], num, k);
      if exists i | 0 <= i < n :: !col[..n][i].Null? && Display(col[..n][i], num.showReal) == k {
        var i :| 0 <= i < n && !col[..n][i].Null? && Display(col[..n][i], num.showReal) == k;
        assert col[..n][i] == col[i];
      }
      if exists i | 0 <= i < |col| :: !col[i].Null? && Display(col[i], num.showReal) == k {
        var i :| 0 <= i < |col| && !col[i].Null? && Display(col[i], num.showReal) == k;
        if i < n { assert col[..n][i] == col[i]; }
      }
    }
  }

  /** How many cells of a column are missing. */
  function CountNull(col: seq<Cell>): (k: nat)
    ensures k <= |col|
  {
    if col == [] then 0 else CountNull(col[..|col| - 1]) + (if col[|col| - 1].Null? then 1 else 0)
  }

  // --------------------------------------------------------- the analysis

  /** `parse_and_analyze`. An unreadable file is an "Invalid CSV" error; a
      table lacking one of the expected columns is a "Missing columns" error
      naming the absent ones and the full expected list; any other table
      succeeds, whatever its cells hold, with one stored row per data line. */
  function ParseAndAnalyze(csv: Csv, num: Numerics): (r: Result<Summary, AnalysisError>)
    ensures csv.Unreadable? ==> r == Failure(InvalidCsv(csv.reason))
    ensures csv.Readable? ==>
              (r.Success? <==> forall c | c in EXPECTED_COLUMNS :: c in NormalizeColumns(csv.table.header))
    ensures csv.Readable? && r.Failure? ==>
              && r.error.MissingColumns?
              && r.error.expected == EXPECTED_COLUMNS
              && r.error.missing != []
              && (forall c :: c in r.error.missing <==>
                                c in EXPECTED_COLUMNS && c !in NormalizeColumns(csv.table.header))
              && InOrderOf(r.error.missing, ExpectedPosition)
    ensures r.Success? ==> r.value.totalCount == |csv.table.records| == |r.value.rawRows|
    ensures r.Success? ==> r.value == Analyze(csv.table, NormalizeColumns(csv.table.header), num)
  {
    match csv
    case Unreadable(reason) => Failure(InvalidCsv(reason))
    case Readable(t) =>
      var columns := NormalizeColumns(t.header);
      var missing := MissingFrom(columns);
      NothingMissing(columns);
      if missing != [] then
        Failure(MissingColumns(missing, EXPECTED_COLUMNS))
      else
        Success(Analyze(t, columns, num))
  }

  /** The summary of a table whose stripped header holds every expected
      column. */
  function Analyze(t: Table, columns: seq<string>, num: Numerics): (s: Summary)
    ensures s.totalCount == |t.records| == |s.rawRows|
  {
    Summary(
      |t.records|,
      Average(Column(t, columns, "Flowrate", num), num),
      Average(Column(t, columns, "Pressure", num), num),
      Average(Column(t, columns, "Temperature", num), num),
      Tally.ValueCounts(TypeLabels(Column(t, columns, "Type", num), num)),
      seq(|t.records|, i requires 0 <= i < |t.records| => RecordRow(columns, t.records[i], num)))
  }

  /** `type_distribution` lists each printed `Type` value once with its
      positive number of occurrences, most frequent first; rows without a
      `Type` are not counted, so the counts add up to at most `total_count`. */
  lemma TypeDistributionCounts(t: Table, columns: seq<string>, num: Numerics)
    ensures var s := Analyze(t, columns, num);
            var col := Column(t, columns, "Type", num);
            && DistinctBy(s.typeDistribution, Tally.Label)
            && (forall k :: k in KeySet(s.typeDistribution, Tally.Label) <==>
                  exists i | 0 <= i < |col| :: !col[i].Null? && Display(col[i], num.showReal) == k)
            && (forall p | p in s.typeDistribution ::
                  p.1 > 0 && p.1 == |RowsTyped(col, num, p.0)|)
            && SumOf(s.typeDistribution, Tally.Count) == s.totalCount - CountNull(col)
            && Sorted(s.typeDistribution, Tally.MoreFrequent)
  {
    var col := Column(t, columns, "Type", num);
    forall k ensures k in TypeLabels(col, num) <==>
                     exists i | 0 <= i < |col| :: !col[i].Null? && Display(col[i], num.showReal) == k {
      TypeLabelsAreDisplayed(col, num, k);
    }
    forall k ensures Tally.Occurrences(k, TypeLabels(col, num)) == |RowsTyped(col, num, k)| {
      TypeLabelCounts(col, num, k);
    }
  }

  /** Each stored average is the rounded mean of the numbers its coerced
      column holds, and is missing exactly when that column holds none. */
  lemma AveragesAreColumnMeans(t: Table, columns: seq<string>, num: Numerics)
    ensures var s := Analyze(t, columns, num);
            && AverageOf(s.avgFlowrate, Column(t, columns, "Flowrate", num), num)
            && AverageOf(s.avgPressure, Column(t, columns, "Pressure", num), num)
            && AverageOf(s.avgTemperature, Column(t, columns, "Temperature", num), num)
  {
  }

  /** `raw_rows` has one row per data line, in file order: row `i` holds every
      column of the stripped header in order, no text in a numeric column,
      and a missing numeric value exactly where line `i` has no number. */
  lemma RawRowsFollowRecords(t: Table, columns: seq<string>, num: Numerics)
    ensures var s := Analyze(t, columns, num);
            && |s.rawRows| == |t.records|
            && forall i | 0 <= i < |s.rawRows| :: RowOfRecord(s.rawRows[i], columns, t.records[i], num)
  {
    var s := Analyze(t, columns, num);
    forall i | 0 <= i < |s.rawRows| ensures RowOfRecord(s.rawRows[i], columns, t.records[i], num) {
      assert s.rawRows[i] == RecordRow(columns, t.records[i], num);
    }
  }

}

=== FILE: sorting.dfy ===
/** Ordering by a caller-supplied "comes before" relation, and the facts about
    permutations that the retention and tallying proofs share. Both the
    newest-first ordering of datasets (`order_by('-created_at')`) and the
    count-descending order of `value_counts()` are instances. */
module Sorting {
  import opened Base

  /** Any two elements are comparable. */
  ghost predicate Total<T(!new)>(before: (T, T) -> bool)
  {
    forall a, b :: before(a, b) || before(b, a)
  }

  ghost predicate Transitive<T(!new)>(before: (T, T) -> bool)
  {
    forall a, b, c :: before(a, b) && before(b, c) ==> before(a, c)
  }

  /** Each element comes before its successor. */
  predicate AdjacentSorted<T>(s: seq<T>, before: (T, T) -> bool)
  {
    forall i | 0 < i < |s| :: before(s[i - 1], s[i])
  }

  /** Each element comes before every later one. */
  predicate Sorted<T>(s: seq<T>, before: (T, T) -> bool)
  {
    forall i, j | 0 <= i < j < |s| :: before(s[i], s[j])
  }

  /** Places `x` in front of the first element it comes before. */
  function Insert<T(!new)>(x: T, s: seq<T>, before: (T, T) -> bool): (r: seq<T>)
    requires Total(before)
    requires AdjacentSorted(s, before)
    ensures multiset(r) == multiset(s) + multiset{x}
    ensures |r| == |s| + 1
    ensures AdjacentSorted(r, before)
    ensures r[0] == x || (s != [] && r[0] == s[0])
  {
    if s == [] || before(x, s[0]) then [x] + s
    else
      assert s == [s[0]] + s[1..];
      [s[0]] + Insert(x, s[1..], before)
  }

  /** A sorted permutation of `s`. */
  function InsertionSort<T(!new)>(s: seq<T>, before: (T, T) -> bool): (r: seq<T>)
    requires Total(before)
    ensures multiset(r) == multiset(s)
    ensures |r| == |s|
    ensures AdjacentSorted(r, before)
  {
    if s == [] then []
    else
      assert s == [s[0]] + s[1..];
      Insert(s[0], InsertionSort(s[1..], before), before)
  }

  /** With a transitive relation, local order is global order. */
  lemma {:induction false} SortedFromAdjacent<T(!new)>(s: seq<T>, before: (T, T) -> bool)
    requires Transitive(before)
    requires AdjacentSorted(s, before)
    ensures Sorted(s, before)
  {
    if |s| > 1 {
      var init := s[..|s| - 1];
      assert AdjacentSorted(init, before) by {
        forall i | 0 < i < |init| ensures before(init[i - 1], init[i]) {
          assert init[i - 1] == s[i - 1] && init[i] == s[i];
        }
      }
      SortedFromAdjacent(init, before);
      forall i, j | 0 <= i < j < |s| ensures before(s[i], s[j]) {
        if j < |s| - 1 {
          assert init[i] == s[i] && init[j] == s[j];
        } else if i < j - 1 {
          assert init[i] == s[i] && init[j - 1] == s[j - 1];
          assert before(s[i], s[j - 1]) && before(s[j - 1], s[j]);
        }
      }
    }
  }

  // ------------------------------------------------------------ distinctness

  /** No two elements of `s` share a key. */
  predicate DistinctBy<T, K(==)>(s: seq<T>, key: T -> K)
  {
    forall i, j | 0 <= i < j < |s| :: key(s[i]) != key(s[j])
  }

  /** The keys of the elements of `s`. */
  function KeySet<T, K>(s: seq<T>, key: T -> K): set<K>
  {
    set i | 0 <= i < |s| :: key(s[i])
  }

  /** Appending an element adds its key. */
  lemma KeySetSnoc<T, K>(s: seq<T>, x: T, key: T -> K)
    ensures KeySet(s + [x], key) == KeySet(s, key) + {key(x)}
  {
    var t := s + [x];
    forall k | k in KeySet(t, key) ensures k in KeySet(s, key) + {key(x)} {
      var i :| 0 <= i < |t| && key(t[i]) == k;
      if i < |s| { assert t[i] == s[i]; }
    }
    forall k | k in KeySet(s, key) ensures k in KeySet(t, key) {
      var i :| 0 <= i < |s| && key(s[i]) == k;
      assert t[i] == s[i];
    }
    assert key(t[|s|]) in KeySet(t, key);
  }

  /** Appending keeps keys distinct exactly when the new key is fresh. */
  lemma DistinctSnoc<T, K>(s: seq<T>, x: T, key: T -> K)
    ensures DistinctBy(s + [x], key) <==> DistinctBy(s, key) && key(x) !in KeySet(s, key)
  {
    var t := s + [x];
    if DistinctBy(t, key) {
      forall i, j | 0 <= i < j < |s| ensures key(s[i]) != key(s[j]) {
        assert t[i] == s[i] && t[j] == s[j];
      }
      forall i | 0 <= i < |s| ensures key(s[i]) != key(x) {
        assert t[i] == s[i] && t[|s|] == x;
      }
    }
    if DistinctBy(s, key) && key(x) !in KeySet(s, key) {
      forall i, j | 0 <= i < j < |t| ensures key(t[i]) != key(t[j]) {
        assert t[i] == s[i];
        if j < |s| { assert t[j] == s[j]; } else { assert key(s[i]) in KeySet(s, key); }
      }
    }
  }

  /** Keys are distinct exactly when there are as many keys as elements. */
  lemma {:induction false} DistinctByCard<T, K>(s: seq<T>, key: T -> K)
    ensures |KeySet(s, key)| <= |s|
    ensures DistinctBy(s, key) <==> |KeySet(s, key)| == |s|
  {
    if s != [] {
      var n := |s| - 1;
      var init := s[..n];
      DistinctByCard(init, key);
      assert KeySet(s, key) == KeySet(init, key) + {key(s[n])} by {
        forall k | k in KeySet(s, key) ensures k in KeySet(init, key) + {key(s[n])} {
          var i :| 0 <= i < |s| && key(s[i]) == k;
          if i < n { assert init[i] == s[i]; }
        }
        forall k | k in KeySet(init, key) ensures k in KeySet(s, key) {
          var i :| 0 <= i < n && key(init[i]) == k;
          assert init[i] == s[i];
        }
      }
      if key(s[n]) in KeySet(init, key) {
        var i :| 0 <= i < n && key(init[i]) == key(s[n]);
        assert init[i] == s[i];
        assert !DistinctBy(s, key);
      } else {
        assert DistinctBy(s, key) <==> DistinctBy(init, key) by {
          if DistinctBy(init, key) {
            forall i, j | 0 <= i < j < |s| ensures key(s[i]) != key(s[j]) {
              assert init[i] == s[i];
              if j < n { assert init[j] == s[j]; }
            }
          }
          if DistinctBy(s, key) {
            forall i, j | 0 <= i < j < n ensures key(init[i]) != key(init[j]) {
              assert init[i] == s[i] && init[j] == s[j];
            }
          }
        }
      }
    }
  }

  /** Reordering a sequence does not change its key set. */
  lemma PermutationKeySet<T, K>(a: seq<T>, b: seq<T>, key: T -> K)
    requires multiset(a) == multiset(b)
    ensures KeySet(a, key) == KeySet(b, key)
  {
    forall k | k in KeySet(a, key) ensures k in KeySet(b, key) {
      var i :| 0 <= i < |a| && key(a[i]) == k;
      assert a[i] in multiset(b);
      var j :| 0 <= j < |b| && b[j] == a[i];
    }
    forall k | k in KeySet(b, key) ensures k in KeySet(a, key) {
      var j :| 0 <= j < |b| && key(b[j]) == k;
      assert b[j] in multiset(a);
      var i :| 0 <= i < |a| && a[i] == b[j];
    }
  }

  /** Reordering a sequence keeps its keys distinct. */
  lemma PermutationKeepsDistinct<T, K>(a: seq<T>, b: seq<T>, key: T -> K)
    requires multiset(a) == multiset(b)
    requires DistinctBy(a, key)
    ensures DistinctBy(b, key)
  {
    assert |a| == |multiset(a)| == |multiset(b)| == |b|;
    PermutationKeySet(a, b, key);
    DistinctByCard(a, key);
    DistinctByCard(b, key);
  }

  // ------------------------------------------------------------------ sums

  lemma {:induction false} SumOfConcat<T>(u: seq<T>, v: seq<T>, f: T -> int)
    ensures SumOf(u + v, f) == SumOf(u, f) + SumOf(v, f)
  {
    if v != [] {
      var n := |v| - 1;
      assert (u + v)[..|u + v| - 1] == u + v[..n];
      SumOfConcat(u, v[..n], f);
    } else {
      assert u + v == u;
    }
  }

  /** Taking element `i` out of `b` takes `f(b[i])` out of the sum. */
  lemma SumOfRemove<T>(b: seq<T>, i: nat, f: T -> int)
    requires i < |b|
    ensures SumOf(b, f) == SumOf(b[..i] + b[i + 1..], f) + f(b[i])
  {
    var u, x, v := b[..i], [b[i]], b[i + 1..];
    assert b == u + (x + v);
    assert x[..0] == [];
    calc {
      SumOf(b, f);
      { SumOfConcat(u, x + v, f); }
      SumOf(u, f) + SumOf(x + v, f);
      { SumOfConcat(x, v, f); }
      SumOf(u, f) + SumOf(x, f) + SumOf(v, f);
      { SumOfConcat(u, v, f); }
      SumOf(u + v, f) + f(b[i]);
    }
  }

  /** Reordering a sequence does not change the sum of `f` over it. */
  lemma {:induction false} SumOfPermutation<T>(a: seq<T>, b: seq<T>, f: T -> int)
    requires multiset(a) == multiset(b)
    ensures SumOf(a, f) == SumOf(b, f)
  {
    if a == [] {
      assert |b| == |multiset(b)| == 0;
    } else {
      var n := |a| - 1;
      var x := a[n];
      assert a == a[..n] + [x];
      assert multiset(a[..n]) == multiset(a) - multiset{x};
      assert x in multiset(b);
      var i :| 0 <= i < |b| && b[i] == x;
      var rest := b[..i] + b[i + 1..];
      assert b == b[..i] + [x] + b[i + 1..];
      assert multiset(b) == multiset(b[..i]) + multiset{x} + multiset(b[i + 1..]);
      assert multiset(rest) == multiset(a[..n]);
      SumOfPermutation(a[..n], rest, f);
      SumOfRemove(b, i, f);
    }
  }

  // --------------------------------------------------------------- filters

  /** Filtering keeps keys distinct. */
  lemma {:induction false} FilterKeepsDistinct<T(!new), K>(s: seq<T>, p: T -> bool, key: T -> K)
    requires DistinctBy(s, key)
    ensures DistinctBy(Filter(s, p), key)
    ensures KeySet(Filter(s, p), key) <= KeySet(s, key)
  {
    if s != [] {
      var n := |s| - 1;
      var init, last := s[..n], s[n];
      assert s == init + [last];
      DistinctSnoc(init, last, key);
      KeySetSnoc(init, last, key);
      FilterKeepsDistinct(init, p, key);
      var f := Filter(init, p);
      if p(last) {
        DistinctSnoc(f, last, key);
        KeySetSnoc(f, last, key);
      } else {
        assert f + [] == f;
      }
    }
  }

  /** The elements of `s` appear in strictly increasing `pos` order (so no
      element appears twice). */
  predicate InOrderOf<T>(s: seq<T>, pos: T -> int)
  {
    forall i, j | 0 <= i < j < |s| :: pos(s[i]) < pos(s[j])
  }

  /** Filtering keeps the survivors in their original order. */
  lemma {:induction false} FilterKeepsOrder<T(!new)>(s: seq<T>, p: T -> bool, pos: T -> int)
    requires InOrderOf(s, pos)
    ensures InOrderOf(Filter(s, p), pos)
  {
    if s != [] {
      var n := |s| - 1;
      var f := Filter(s[..n], p);
      FilterKeepsOrder(s[..n], p, pos);
      if p(s[n]) {
        FilterMembers(s[..n], p);
        var g := f + [s[n]];
        forall i, j | 0 <= i < j < |g| ensures pos(g[i]) < pos(g[j]) {
          if j == |f| {
            assert g[i] == f[i] && f[i] in s[..n];
            var k :| 0 <= k < n && s[..n][k] == f[i];
            assert s[k] == f[i];
          } else {
            assert g[i] == f[i] && g[j] == f[j];
          }
        }
      } else {
        assert Filter(s, p) == f + [] == f;
      }
    }
  }

  /** Filtering by a condition every element meets changes nothing. */
  lemma {:induction false} FilterAll<T(!new)>(s: seq<T>, p: T -> bool)
    requires forall i | 0 <= i < |s| :: p(s[i])
    ensures Filter(s, p) == s
  {
    if s != [] {
      var n := |s| - 1;
      assert forall i | 0 <= i < n :: s[..n][i] == s[i];
      FilterAll(s[..n], p);
      assert s == s[..n] + [s[n]];
    }
  }

  /** A first filter that spares everything the second one keeps is invisible
      to the second. */
  lemma {:induction false} FilterFilter<T(!new)>(s: seq<T>, p: T -> bool, q: T -> bool)
    requires forall i | 0 <= i < |s| :: q(s[i]) ==> p(s[i])
    ensures Filter(Filter(s, p), q) == Filter(s, q)
  {
    if s != [] {
      var n := |s| - 1;
      assert forall i | 0 <= i < n :: s[..n][i] == s[i];
      FilterFilter(s[..n], p, q);
      var f := Filter(s[..n], p);
      var last := if q(s[n]) then [s[n]] else [];
      assert Filter(s, q) == Filter(s[..n], q) + last;
      if p(s[n]) {
        var g := f + [s[n]];
        assert Filter(s, p) == g;
        assert g[..|g| - 1] == f && g[|g| - 1] == s[n];
        assert Filter(g, q) == Filter(f, q) + last;
      } else {
        assert Filter(s, p) == f + [] == f;
        assert last == [];
      }
    }
  }
}

=== FILE: tally.dfy ===
/** pandas' `value_counts()` on the `Type` column: one entry per distinct
    label with its number of occurrences, most frequent first. */
module Tally {
  import opened Base
  import opened Sorting
  import opened Models

  function Label(p: (string, nat)): string { p.0 }

  function Count(p: (string, nat)): int { p.1 }

  /** How often `k` occurs in `labels`. */
  function Occurrences(k: string, labels: seq<string>): nat
  {
    if labels == [] then 0
    else Occurrences(k, labels[..|labels| - 1]) + (if labels[|labels| - 1] == k then 1 else 0)
  }

  /** The count recorded for `k` in `t`, or 0 when `k` has no entry. */
  function CountOf(t: Distribution, k: string): nat
  {
    if t == [] then 0
    else if t[|t| - 1].0 == k then t[|t| - 1].1
    else CountOf(t[..|t| - 1], k)
  }

  /** Every entry has a positive count. */
  predicate Positive(t: Distribution)
  {
    forall i | 0 <= i < |t| :: t[i].1 > 0
  }

  /** Records one more occurrence of `k`. */
  function Bump(t: Distribution, k: string): (r: Distribution)
    requires DistinctBy(t, Label) && Positive(t)
    ensures DistinctBy(r, Label) && Positive(r)
    ensures KeySet(r, Label) == KeySet(t, Label) + {k}
    ensures forall k' :: CountOf(r, k') == CountOf(t, k') + (if k' == k then 1 else 0)
    ensures SumOf(r, Count) == SumOf(t, Count) + 1
  {
    if t == [] then
      KeySetSnoc([], (k, 1), Label);
      DistinctSnoc([], (k, 1), Label);
      [] + [(k, 1)]
    else
      var n := |t| - 1;
      var init, last := t[..n], t[n];
      assert t == init + [last];
      KeySetSnoc(init, last, Label);
      DistinctSnoc(init, last, Label);
      if last.0 == k then
        var entry := (k, last.1 + 1);
        KeySetSnoc(init, entry, Label);
        DistinctSnoc(init, entry, Label);
        assert (init + [entry])[..n] == init;
        init + [entry]
      else
        var b := Bump(init, k);
        KeySetSnoc(b, last, Label);
        DistinctSnoc(b, last, Label);
        assert (b + [last])[..|b|] == b;
        b + [last]
  }

  /** Occurrence counts in order of first appearance. */
  function CountInOrder(labels: seq<string>): (t: Distribution)
    ensures DistinctBy(t, Label) && Positive(t)
    ensures forall k :: k in KeySet(t, Label) <==> k in labels
    ensures forall k :: CountOf(t, k) == Occurrences(k, labels)
    ensures SumOf(t, Count) == |labels|
  {
    if labels == [] then []
    else
      var n := |labels| - 1;
      assert labels == labels[..n] + [labels[n]];
      Bump(CountInOrder(labels[..n]), labels[n])
  }

  /** With distinct labels, an entry's count is the one `CountOf` reports. */
  lemma {:induction false} EntriesAreCounts(t: Distribution)
    requires DistinctBy(t, Label)
    ensures forall p | p in t :: p.1 == CountOf(t, p.0)
  {
    if t != [] {
      var n := |t| - 1;
      var init := t[..n];
      assert DistinctBy(init, Label) by {
        forall i, j | 0 <= i < j < n ensures init[i].0 != init[j].0 {
          assert init[i] == t[i] && init[j] == t[j];
        }
      }
      EntriesAreCounts(init);
      forall p | p in t ensures p.1 == CountOf(t, p.0) {
        var i :| 0 <= i < |t| && t[i] == p;
        if i < n {
          assert init[i] == p;
          assert t[i].0 != t[n].0;
        }
      }
    }
  }

  /** The order of `value_counts()`: larger counts first. */
  predicate MoreFrequent(p: (string, nat), q: (string, nat))
  {
    p.1 >= q.1
  }

  /** `value_counts()`: each distinct label once, with its positive number of
      occurrences, the counts adding up to the number of labels, most frequent
      first. */
  function ValueCounts(labels: seq<string>): (r: Distribution)
    ensures DistinctBy(r, Label)
    ensures forall k :: k in KeySet(r, Label) <==> k in labels
    ensures forall p | p in r :: p.1 == Occurrences(p.0, labels) && p.1 > 0
    ensures SumOf(r, Count) == |labels|
    ensures Sorted(r, MoreFrequent)
  {
    var t := CountInOrder(labels);
    var r := InsertionSort(t, MoreFrequent);
    PermutationKeepsDistinct(t, r, Label);
    PermutationKeySet(t, r, Label);
    SumOfPermutation(t, r, Count);
    EntriesAreCounts(t);
    assert forall p | p in r :: p in t by {
      forall p | p in r ensures p in t {
        assert p in multiset(r);
      }
    }
    SortedFromAdjacent(r, MoreFrequent);
    r
  }
}

=== FILE: text.dfy ===
/** The string operations the backend borrows from Python: `str.strip()`,
    `str(int)`, zero-padded `strftime` fields and the `repr` of a list of
    plain strings. */
module Text {

  /** Python's `str.isspace` for one character (the characters `str.strip()`
      removes when called without arguments). */
  predicate IsSpace(c: char)
  {
    || c == ' '
    || '\t' <= c <= '\r'
    || '\U{1C}' <= c <= '\U{1F}'
    || c == '\U{85}' || c == '\U{A0}' || c == '\U{1680}'
    || '\U{2000}' <= c <= '\U{200A}'
    || c == '\U{2028}' || c == '\U{2029}' || c == '\U{202F}'
    || c == '\U{205F}' || c == '\U{3000}'
  }

  predicate AllSpace(s: string)
  {
    forall i | 0 <= i < |s| :: IsSpace(s[i])
  }

  /** Neither end of `s` is whitespace. */
  predicate Trimmed(s: string)
  {
    s == [] || (!IsSpace(s[0]) && !IsSpace(s[|s| - 1]))
  }

  /** The number of whitespace characters that open `s`. */
  function LeadingSpaces(s: string): (k: nat)
    ensures k <= |s|
    ensures AllSpace(s[..k])
    ensures k < |s| ==> !IsSpace(s[k])
  {
    if s == [] || !IsSpace(s[0]) then 0
    else
      var k := 1 + LeadingSpaces(s[1..]);
      assert s[..k] == [s[0]] + s[1..][..k - 1];
      k
  }

  /** The number of whitespace characters that close `s`. */
  function TrailingSpaces(s: string): (k: nat)
    ensures k <= |s|
    ensures AllSpace(s[|s| - k..])
    ensures k < |s| ==> !IsSpace(s[|s| - k - 1])
  {
    if s == [] || !IsSpace(s[|s| - 1]) then 0
    else
      var k := 1 + TrailingSpaces(s[..|s| - 1]);
      assert s[|s| - k..] == s[..|s| - 1][|s| - k..] + [s[|s| - 1]];
      k
  }

  /** Python's `s.strip()`: `s` without its leading and trailing whitespace. */
  function Strip(s: string): (r: string)
    ensures Trimmed(r)
    ensures r == [] <==> AllSpace(s)
    ensures LeadingSpaces(s) + |r| <= |s|
    ensures r != [] ==> s == s[..LeadingSpaces(s)] + r + s[LeadingSpaces(s) + |r|..]
    ensures AllSpace(s[LeadingSpaces(s) + |r|..])
  {
    var a := LeadingSpaces(s);
    if a == |s| then
      assert s[..a] == s;
      []
    else
      var b := TrailingSpaces(s);
      StripBounds(s, a, b);
      s[a..|s| - b]
  }

  lemma StripBounds(s: string, a: nat, b: nat)
    requires a < |s| && !IsSpace(s[a])
    requires b <= |s| && AllSpace(s[|s| - b..]) && (b < |s| ==> !IsSpace(s[|s| - b - 1]))
    ensures a < |s| - b
    ensures Trimmed(s[a..|s| - b])
    ensures !AllSpace(s)
    ensures s == s[..a] + s[a..|s| - b] + s[|s| - b..]
  {
    var r := s[a..|s| - b];
    assert r[0] == s[a] && r[|r| - 1] == s[|s| - b - 1];
  }

  /** Stripping recovers the core of a whitespace-padded name; this is why
      `" Type "` in a header satisfies the required column `Type`. */
  lemma StripPadded(pre: string, core: string, post: string)
    requires AllSpace(pre) && AllSpace(post) && Trimmed(core)
    ensures Strip(pre + core + post) == core
  {
    var s := pre + core + post;
    var a := LeadingSpaces(s);
    if core == [] {
      assert AllSpace(s) by {
        forall i | 0 <= i < |s| ensures IsSpace(s[i]) {
          if i < |pre| { assert s[i] == pre[i]; } else { assert s[i] == post[i - |pre|]; }
        }
      }
    } else {
      assert s[|pre|] == core[0];
      assert a == |pre|;
      var b := TrailingSpaces(s);
      assert s[|s| - |post| - 1] == core[|core| - 1];
      assert b == |post|;
      assert s[a..|s| - b] == core;
    }
  }

  /** Stripping twice is stripping once. */
  lemma StripIdempotent(s: string)
    ensures Strip(Strip(s)) == Strip(s)
  {
    var r := Strip(s);
    StripPadded([], r, []);
    assert [] + r + [] == r;
  }

  // ---------------------------------------------------------------- digits

  predicate IsDigit(c: char)
  {
    '0' <= c <= '9'
  }

  function DigitChar(d: nat): (c: char)
    requires d < 10
    ensures IsDigit(c) && DigitValue(c) == d
  {
    (('0' as int) + d) as char
  }

  function DigitValue(c: char): nat
  {
    if IsDigit(c) then (c as int) - ('0' as int) else 0
  }

  /** A decimal numeral as Python prints one: digits only, at least one,
      and no leading zero unless the numeral is `0` itself. */
  predicate IsDecimal(s: string)
  {
    && 1 <= |s|
    && (forall i | 0 <= i < |s| :: IsDigit(s[i]))
    && (|s| > 1 ==> s[0] != '0')
  }

  /** Python's `str(n)` for a non-negative integer. */
  function NatToString(n: nat): (s: string)
    ensures IsDecimal(s)
  {
    if n < 10 then [DigitChar(n)] else NatToString(n / 10) + [DigitChar(n % 10)]
  }

  /** The value of a string of decimal digits (read left to right). */
  function ParseNat(s: string): nat
  {
    if s == [] then 0 else ParseNat(s[..|s| - 1]) * 10 + DigitValue(s[|s| - 1])
  }

  /** Reading back what `str(n)` wrote gives `n` again. */
  lemma {:induction false} ParseNatToString(n: nat)
    ensures ParseNat(NatToString(n)) == n
  {
    var s := NatToString(n);
    if n >= 10 {
      ParseNatToString(n / 10);
      assert s[..|s| - 1] == NatToString(n / 10);
    }
  }

  /** A decimal numeral is the printed form of the value it reads as, so a
      numeral that reads back as `n` is exactly `str(n)`. */
  lemma {:induction false} DecimalIsPrinted(s: string)
    requires IsDecimal(s)
    ensures NatToString(ParseNat(s)) == s
  {
    var n := |s| - 1;
    if n == 0 {
      assert s[..n] == [];
      assert DigitChar(DigitValue(s[0])) == s[0];
    } else {
      var p := s[..n];
      assert p[0] == s[0];
      assert forall i | 0 <= i < |p| :: p[i] == s[i];
      DecimalIsPrinted(p);
      LeadingDigitPositive(p);
      var v := ParseNat(s);
      assert v / 10 == ParseNat(p) && v % 10 == DigitValue(s[n]);
      assert DigitChar(DigitValue(s[n])) == s[n];
      assert s == p + [s[n]];
    }
  }

  lemma {:induction false} LeadingDigitPositive(s: string)
    requires IsDecimal(s) && s[0] != '0'
    ensures ParseNat(s) >= 1
  {
    var n := |s| - 1;
    if n == 0 {
      assert s[..n] == [];
    } else {
      var p := s[..n];
      assert p[0] == s[0];
      assert forall i | 0 <= i < |p| :: p[i] == s[i];
      LeadingDigitPositive(p);
    }
  }

  /** `%m`, `%d`, `%H` and `%M`: a two-digit, zero-padded field. */
  function Pad2(n: nat): (s: string)
    requires n < 100
    ensures |s| == 2 && IsDigit(s[0]) && IsDigit(s[1])
    ensures ParseNat(s) == n
  {
    var s := [DigitChar(n / 10), DigitChar(n % 10)];
    assert s[..1][..0] == [];
    assert ParseNat(s[..1]) == n / 10;
    s
  }

  // ------------------------------------------------------------ list repr

  /** `', '.join(parts)`. */
  function Join(sep: string, parts: seq<string>): string
  {
    if parts == [] then ""
    else if |parts| == 1 then parts[0]
    else parts[0] + sep + Join(sep, parts[1..])
  }

  /** Python's `repr` of a list of strings that contain no quote or
      backslash characters: `['a', 'b']`. */
  function ListRepr(items: seq<string>): string
  {
    "[" + Join(", ", seq(|items|, i requires 0 <= i < |items| => "'" + items[i] + "'")) + "]"
  }
}

=== FILE: views.dfy ===
/** The request handlers of `views.py` over an in-memory store: the upload,
    the summary and report lookups by id, and the history list. The store is
    the `EquipmentDataset` table in insertion order plus the next primary key;
    the clock is a parameter of the upload. */
module Views {
  import opened Base
  import opened Text
  import opened Sorting
  import opened Models
  import opened Services
  import opened Retention
  import PdfReport

  const HTTP_200_OK: nat := 200
  const HTTP_201_CREATED: nat := 201
  const HTTP_400_BAD_REQUEST: nat := 400
  const HTTP_404_NOT_FOUND: nat := 404

  const NO_FILE: string := "No file provided"
  const NOT_FOUND: string := "Dataset not found"
  const REPORT_PREFIX: string := "equipment_report_"
  const REPORT_SUFFIX: string := ".pdf"

  /** The `EquipmentDataset` table and the primary key the next save gets. */
  datatype Db = Db(datasets: seq<Dataset>, nextId: nat)

  /** Primary keys are unique and every one was handed out before. */
  predicate Valid(db: Db)
  {
    && UniqueIds(db.datasets)
    && forall d | d in db.datasets :: d.id < db.nextId
  }

  /** An uploaded file: its client-side name and what the CSV reader makes
      of its content. */
  datatype UploadedFile = UploadedFile(name: string, content: Csv)

  /** The multipart form of an upload: the `file` part, the optional `name`
      field, and who sends it. */
  datatype UploadRequest = UploadRequest(file: Option<UploadedFile>, name: Option<string>, caller: Caller)

  /** `if not file_obj`: a missing part, or a file whose name is empty (a
      Django `File` is false exactly when its name is). */
  predicate HasFile(req: UploadRequest)
  {
    req.file.Some? && req.file.value.name != ""
  }

  datatype Body =
    | ErrorBody(message: string)
    | DatasetBody(dataset: Dataset)
    | DatasetList(datasets: seq<Dataset>)
    | PdfBody(document: seq<PdfReport.Element>, fileName: string)

  datatype Response = Response(status: nat, body: Body)

  /** The store after a request, and the answer. */
  datatype Outcome = Outcome(db: Db, response: Response)

  /** The name a dataset is stored under: the form's `name` field when it
      is sent, else the file's name, else the default. */
  function StoredName(req: UploadRequest): (r: string)
    requires req.file.Some?
    ensures req.name.Some? ==> r == req.name.value
    ensures req.name.None? && req.file.value.name != "" ==> r == req.file.value.name
    ensures r == DEFAULT_NAME ==>
              req.name == Some(DEFAULT_NAME) || (req.name.None? && req.file.value.name in {"", DEFAULT_NAME})
  {
    if req.name.Some? then req.name.value
    else if req.file.value.name != "" then req.file.value.name
    else DEFAULT_NAME
  }

  /** The uploader recorded with a dataset: the logged-in user, or nobody. */
  function Owner(caller: Caller): Option<UserId>
  {
    match caller
    case Anonymous => None
    case User(uid) => Some(uid)
  }

  /** The record the upload saves: the next key, the current time, and the
      analysis copied field by field. */
  function NewDataset(db: Db, req: UploadRequest, now: DateTime, s: Summary): Dataset
    requires req.file.Some?
  {
    Dataset(db.nextId, StoredName(req), Owner(req.caller), now, s.totalCount,
            s.avgFlowrate, s.avgPressure, s.avgTemperature, s.typeDistribution, s.rawRows)
  }

  /** `CSVUploadView.post`. Without a file, or when the analysis fails, the
      answer is a 400 with the error text and the store is left as it was.
      Otherwise the analysis is saved (see `Save`). */
  function Upload(db: Db, req: UploadRequest, now: DateTime, num: Numerics): (out: Outcome)
    ensures out.response.status == HTTP_201_CREATED <==>
              HasFile(req) && ParseAndAnalyze(req.file.value.content, num).Success?
    ensures out.response.status != HTTP_201_CREATED ==>
              out.db == db && out.response.status == HTTP_400_BAD_REQUEST
    ensures !HasFile(req) ==> out.response.body == ErrorBody(NO_FILE)
    ensures HasFile(req) && ParseAndAnalyze(req.file.value.content, num).Failure? ==>
              out.response.body == ErrorBody(ErrorMessage(ParseAndAnalyze(req.file.value.content, num).error))
    ensures HasFile(req) && ParseAndAnalyze(req.file.value.content, num).Success? ==>
              out == Save(db, req, now, ParseAndAnalyze(req.file.value.content, num).value)
  {
    if !HasFile(req) then
      Outcome(db, Response(HTTP_400_BAD_REQUEST, ErrorBody(NO_FILE)))
    else
      match ParseAndAnalyze(req.file.value.content, num)
      case Failure(e) => Outcome(db, Response(HTTP_400_BAD_REQUEST, ErrorBody(ErrorMessage(e))))
      case Success(s) => Save(db, req, now, s)
  }

  /** The successful end of an upload: the analysis `s` is saved under the
      next key with the current time and the uploader, the uploader's scope
      is trimmed, and the answer is a 201 with the saved record. */
  function Save(db: Db, req: UploadRequest, now: DateTime, s: Summary): (out: Outcome)
    requires req.file.Some?
    ensures out.response.status == HTTP_201_CREATED && out.response.body.DatasetBody?
    ensures var d := out.response.body.dataset;
            && d.id == db.nextId && d.createdAt == now && d.uploadedBy == Owner(req.caller)
            && out.db.nextId == db.nextId + 1
            && out.db.datasets == TrimToLastN(db.datasets + [d], req.caller)
  {
    var d := NewDataset(db, req, now, s);
    Outcome(Db(TrimToLastN(db.datasets + [d], req.caller), db.nextId + 1), Response(HTTP_201_CREATED, DatasetBody(d)))
  }

  /** The stored name is the `name` field when the form has one and the file
      name otherwise; the `'Untitled'` fallback is never taken, because an
      upload only gets this far with a non-empty file name. */
  lemma StoredNameRule(req: UploadRequest)
    requires HasFile(req)
    ensures StoredName(req) == (if req.name.Some? then req.name.value else req.file.value.name)
    ensures StoredName(req) == DEFAULT_NAME ==>
              req.name == Some(DEFAULT_NAME) || (req.name.None? && req.file.value.name == DEFAULT_NAME)
  {
  }

  /** A saved record holds the analysis unchanged under the stored name:
      what `parse_and_analyze` returned is what the record holds. */
  lemma SaveCopiesSummary(db: Db, req: UploadRequest, now: DateTime, s: Summary)
    requires HasFile(req)
    ensures var d := Save(db, req, now, s).response.body.dataset;
            && d.name == (if req.name.Some? then req.name.value else req.file.value.name)
            && d.totalCount == s.totalCount
            && d.avgFlowrate == s.avgFlowrate
            && d.avgPressure == s.avgPressure
            && d.avgTemperature == s.avgTemperature
            && d.typeDistribution == s.typeDistribution
            && d.rawRows == s.rawRows
  {
  }

  /** The record saved by an upload belongs to the uploader's trim scope. */
  lemma OwnerInScope(d: Dataset, caller: Caller)
    requires d.uploadedBy == Owner(caller)
    ensures InScope(d, caller)
  {
  }

  /** Appending one dataset to a store keeps its keys unique when the key is
      fresh. */
  lemma SaveKeepsUniqueIds(db: Db, d: Dataset)
    requires Valid(db) && d.id == db.nextId
    ensures UniqueIds(db.datasets + [d])
  {
    DistinctSnoc(db.datasets, d, Id);
  }

  /** Saving keeps the store valid: keys stay unique and below the next key. */
  lemma SaveKeepsValid(db: Db, req: UploadRequest, now: DateTime, s: Summary)
    requires Valid(db) && req.file.Some?
    ensures Valid(Save(db, req, now, s).db)
  {
    var out := Save(db, req, now, s);
    var d := out.response.body.dataset;
    var saved := db.datasets + [d];
    SaveKeepsUniqueIds(db, d);
    var doomed := Doomed(saved, req.caller);
    FilterKeepsDistinct(saved, Spared(doomed), Id);
  }

  /** Every request keeps the store valid. */
  lemma UploadKeepsValid(db: Db, req: UploadRequest, now: DateTime, num: Numerics)
    requires Valid(db)
    ensures Valid(Upload(db, req, now, num).db)
  {
    if HasFile(req) && ParseAndAnalyze(req.file.value.content, num).Success? {
      SaveKeepsValid(db, req, now, ParseAndAnalyze(req.file.value.content, num).value);
    }
  }

  /** With a clock that does not run backwards, the dataset just saved is the
      newest of its scope, so the trim that follows always keeps it. */
  lemma SavedSurvives(db: Db, req: UploadRequest, now: DateTime, s: Summary)
    requires Valid(db) && req.file.Some?
    requires forall e | e in db.datasets :: e.createdAt.Ticks() <= now.Ticks()
    ensures Save(db, req, now, s).response.body.dataset in Save(db, req, now, s).db.datasets
  {
    var out := Save(db, req, now, s);
    var d := out.response.body.dataset;
    var saved := db.datasets + [d];
    SaveKeepsUniqueIds(db, d);
    OwnerInScope(d, req.caller);
    NoneNewer(db, d);
    RankZero(saved, d, req.caller);
    TrimKeepsNewest(saved, req.caller, d);
  }

  /** Nothing in the scope is listed before a dataset that no stored one is
      newer than. */
  lemma RankZero(s: seq<Dataset>, d: Dataset, caller: Caller)
    requires forall e | e in s :: !Newer(e, d)
    ensures Rank(d, s, caller) == 0
  {
    FilterMembers(s, InScopeOf(caller));
    assert NewerIds(Scoped(s, caller), d) == {};
  }

  /** A dataset at least as recent as every stored one and carrying the next
      key has no stored dataset newer than it, itself included. */
  lemma NoneNewer(db: Db, d: Dataset)
    requires Valid(db) && d.id == db.nextId
    requires forall e | e in db.datasets :: e.createdAt.Ticks() <= d.createdAt.Ticks()
    ensures forall e | e in db.datasets + [d] :: !Newer(e, d)
  {
    forall e | e in db.datasets + [d] ensures !Newer(e, d) {
      if e != d {
        assert e in db.datasets;
      }
    }
  }

  /** `Filter` over a store with one more dataset at the end. */
  lemma FilterSnoc(s: seq<Dataset>, d: Dataset, p: Dataset -> bool)
    ensures Filter(s + [d], p) == if p(d) then Filter(s, p) + [d] else Filter(s, p)
  {
    assert (s + [d])[..|s|] == s;
  }

  /** After a save the uploader's scope holds the new dataset and at most
      `MAX_STORED_DATASETS` in all: one more than before, up to the cap. */
  lemma SaveCap(db: Db, req: UploadRequest, now: DateTime, s: Summary)
    requires Valid(db) && req.file.Some?
    ensures |Scoped(Save(db, req, now, s).db.datasets, req.caller)|
            == Min(MAX_STORED_DATASETS, |Scoped(db.datasets, req.caller)| + 1)
  {
    var out := Save(db, req, now, s);
    var d := out.response.body.dataset;
    SaveKeepsUniqueIds(db, d);
    OwnerInScope(d, req.caller);
    FilterSnoc(db.datasets, d, InScopeOf(req.caller));
    TrimCap(db.datasets + [d], req.caller);
  }

  /** A save never touches the datasets outside the uploader's scope: other
      users' datasets stay as they were, in order. */
  lemma SaveSparesOtherScopes(db: Db, req: UploadRequest, now: DateTime, s: Summary)
    requires Valid(db) && req.file.Some?
    ensures Filter(Save(db, req, now, s).db.datasets, OutOfScopeOf(req.caller))
            == Filter(db.datasets, OutOfScopeOf(req.caller))
  {
    var out := Save(db, req, now, s);
    var d := out.response.body.dataset;
    SaveKeepsUniqueIds(db, d);
    OwnerInScope(d, req.caller);
    FilterSnoc(db.datasets, d, OutOfScopeOf(req.caller));
    TrimSparesOtherScopes(db.datasets + [d], req.caller);
  }

  /** No request touches the datasets outside the caller's scope. */
  lemma UploadSparesOtherScopes(db: Db, req: UploadRequest, now: DateTime, num: Numerics)
    requires Valid(db)
    ensures Filter(Upload(db, req, now, num).db.datasets, OutOfScopeOf(req.caller))
            == Filter(db.datasets, OutOfScopeOf(req.caller))
  {
    if HasFile(req) && ParseAndAnalyze(req.file.value.content, num).Success? {
      SaveSparesOtherScopes(db, req, now, ParseAndAnalyze(req.file.value.content, num).value);
    }
  }

  // -------------------------------------------------------------- lookups

  /** The lookup by primary key: the dataset with that key, or
      nothing (`DoesNotExist`). */
  function Find(s: seq<Dataset>, id: nat): (r: Option<Dataset>)
    ensures r.None? <==> forall d | d in s :: d.id != id
    ensures r.Some? ==> r.value in s && r.value.id == id
  {
    if s == [] then None
    else if s[0].id == id then Some(s[0])
    else
      var r := Find(s[1..], id);
      assert forall d | d in s :: d == s[0] || d in s[1..];
      r
  }

  /** In a store with unique keys the lookup finds exactly the dataset that
      carries the key. */
  lemma FindStored(s: seq<Dataset>, d: Dataset)
    requires UniqueIds(s) && d in s
    ensures Find(s, d.id) == Some(d)
  {
    SameIdSameDataset(s, Find(s, d.id).value, d);
  }

  /** `SummaryView.get`: the stored record, or 404 when no dataset has the
      key. Any dataset can be read, whoever uploaded it. */
  function SummaryGet(db: Db, id: nat): (resp: Response)
    ensures resp.status == HTTP_404_NOT_FOUND <==> forall d | d in db.datasets :: d.id != id
    ensures resp.status == HTTP_404_NOT_FOUND ==> resp.body == ErrorBody(NOT_FOUND)
    ensures resp.status != HTTP_404_NOT_FOUND ==>
              && resp.status == HTTP_200_OK && resp.body.DatasetBody?
              && resp.body.dataset in db.datasets && resp.body.dataset.id == id
  {
    match Find(db.datasets, id)
    case None => Response(HTTP_404_NOT_FOUND, ErrorBody(NOT_FOUND))
    case Some(d) => Response(HTTP_200_OK, DatasetBody(d))
  }

  /** `PDFReportView.get`: the report of the stored record, as an attachment
      named after the key, or 404 when no dataset has the key. */
  function ReportGet(db: Db, id: nat, showReal: real -> string): (resp: Response)
    ensures resp.status == HTTP_404_NOT_FOUND <==> forall d | d in db.datasets :: d.id != id
    ensures resp.status == HTTP_404_NOT_FOUND ==> resp.body == ErrorBody(NOT_FOUND)
    ensures resp.status != HTTP_404_NOT_FOUND ==>
              && resp.status == HTTP_200_OK && resp.body.PdfBody?
              && resp.body.fileName == ReportFileName(id)
              && exists d | d in db.datasets :: d.id == id && resp.body.document == PdfReport.BuildReport(d, showReal)
  {
    match Find(db.datasets, id)
    case None => Response(HTTP_404_NOT_FOUND, ErrorBody(NOT_FOUND))
    case Some(d) =>
      Response(HTTP_200_OK, PdfBody(PdfReport.BuildReport(d, showReal), ReportFileName(id)))
  }

  /** The attachment name: the report prefix, the requested key, `.pdf`. */
  function ReportFileName(id: nat): string
  {
    REPORT_PREFIX + NatToString(id) + REPORT_SUFFIX
  }

  /** The attachment name carries the requested key, and it reads back. */
  lemma ReportFileNameNamesKey(id: nat)
    ensures var name := ReportFileName(id);
            && |REPORT_PREFIX| < |name| - |REPORT_SUFFIX|
            && name[..|REPORT_PREFIX|] == REPORT_PREFIX
            && name[|name| - |REPORT_SUFFIX|..] == REPORT_SUFFIX
            && IsDecimal(name[|REPORT_PREFIX|..|name| - |REPORT_SUFFIX|])
            && ParseNat(name[|REPORT_PREFIX|..|name| - |REPORT_SUFFIX|]) == id
  {
    var digits := NatToString(id);
    var name := ReportFileName(id);
    assert name[|REPORT_PREFIX|..|name| - |REPORT_SUFFIX|] == digits;
    ParseNatToString(id);
  }

  /** `HistoryListView.get`: the newest datasets of the whole store. */
  function HistoryGet(db: Db): (resp: Response)
    ensures resp.status == HTTP_200_OK && resp.body.DatasetList?
    ensures |resp.body.datasets| == Min(MAX_STORED_DATASETS, |db.datasets|)
    ensures Sorted(resp.body.datasets, NewerOrSame)
  {
    Response(HTTP_200_OK, DatasetList(History(db.datasets)))
  }

  /** The history lists exactly the datasets no more than four others are
      newer than, whoever uploaded them, newest first. */
  lemma HistoryGetIsNewest(db: Db, d: Dataset)
    requires Valid(db)
    ensures d in HistoryGet(db).body.datasets <==>
              d in db.datasets && Rank(d, db.datasets, Anonymous) < MAX_STORED_DATASETS
  {
    HistoryIsNewest(db.datasets, d);
  }

  /** Save then look up: with a clock that does not run backwards, the key
      a successful upload answers with finds the record it saved, and the
      history lists it. */
  lemma SaveThenLookup(db: Db, req: UploadRequest, now: DateTime, s: Summary)
    requires Valid(db) && req.file.Some?
    requires forall e | e in db.datasets :: e.createdAt.Ticks() <= now.Ticks()
    ensures var out := Save(db, req, now, s);
            && SummaryGet(out.db, db.nextId) == Response(HTTP_200_OK, out.response.body)
            && out.response.body.dataset in HistoryGet(out.db).body.datasets
  {
    var out := Save(db, req, now, s);
    var d := out.response.body.dataset;
    SaveKeepsValid(db, req, now, s);
    SavedSurvives(db, req, now, s);
    FindStored(out.db.datasets, d);
    NewestInHistory(db, req, now, s);
  }

  /** The dataset a save stored ranks first in the whole store afterwards,
      so the history lists it. */
  lemma NewestInHistory(db: Db, req: UploadRequest, now: DateTime, s: Summary)
    requires Valid(db) && req.file.Some?
    requires forall e | e in db.datasets :: e.createdAt.Ticks() <= now.Ticks()
    ensures var out := Save(db, req, now, s);
            out.response.body.dataset in History(out.db.datasets)
  {
    var out := Save(db, req, now, s);
    var d := out.response.body.dataset;
    var after := out.db.datasets;
    SaveKeepsValid(db, req, now, s);
    SavedSurvives(db, req, now, s);
    NoneNewer(db, d);
    RankZero(after, d, Anonymous);
    HistoryIsNewest(after, d);
  }
}
